=== FILE: README.md ===
# Queue-join clients of a face-fusion service, modelled in Dafny

Three Python scripts drive a face-fusion web application over its
queue channel (a websocket). They open an HTTP session, send two JPEG
images and save the fused result. This project models what each script
does with every event on the channel. It proves what those reactions
promise.

- **The full client** (`mainworkingfacefusion.py`) is modules `FaceFusion` and
  `FaceFusionProperties`. It answers `send_hash` with the session hash,
  `fn_index` 105 and the session id. It answers `send_data` with the job
  request. `process_starts` arms a 60-second timer. On `process_completed` it
  cancels the remembered timer and handles the result, then sets the
  completion flag and closes. A result is either an inline data URL, which
  is decoded and written to `fused_image.png`, or a reference to a file on
  the service, which is downloaded from `<app>/file=<quoted name>`.
  `queue_full`, `error` and an expired timer end the wait as well.
- **The reduced client** (`test.py`) is modules `Reduced` and
  `ReducedProperties`. Its frames have neither `fn_index` nor `session_id`.
  It arms no timer and saves only inline results. `queue_full` and `error`
  are not kinds it knows.
- **The upload client** (`tempCodeRunnerFile.py`) is modules `StatusClient` and
  `StatusClientProperties`. Its frames are keyed by `status`. It keeps no
  state. A `completed` frame carries the base64 image, which is written to
  `fused_image.jpg`.

What the clients compute before the channel opens is modelled too.
`Session` covers the cookie values, the generated session hash and the
`Cookie` header (section 4.2.1 of RFC 6265). `Base64` covers the payload
encoding and CPython's lenient decoder (section 4 of RFC 4648). `UrlQuote`
covers `urllib.parse.quote` (section 2.1 of RFC 3986).

A handler is a pure step function from the client's state and one event
(a frame, a timer expiry, a transport error or close) to the next state
and a sequence of actions. Actions are sends, closes, setting the
completion flag, arming and cancelling timers, HTTP downloads, file writes
and console reports. An exception that escapes the handler is a final
`Raise` action. Everything before it happened and nothing after it did.
HTTP answers arrive through a `fetch` function parameter. The UUID text
and the file contents are parameters too.

The model keeps some behaviours of the code that a reader might not expect:

- The second payload of the full client is the bare prefix
  `data:image/jpeg;base64,`. The second file is read into an unused variable
  and then read again at its end (`mainworkingfacefusion.py:72-74`).
- No handler checks the completion flag. A frame that arrives after
  completion is handled exactly as before, and every `send_data` submits
  the job again.
- A second `process_starts` replaces the remembered timer without
  cancelling the first one, which still fires later.
- `queue_full` and `error` do not cancel the timer. A completion cancels
  the timer even when its result handling then raises.
- A successful completion without `output` raises `AttributeError`. A data
  URL without a comma raises `ValueError`. In both cases the handler neither
  sets the flag nor closes the channel.

## Model

| member | source | states |
|---|---|---|
| Basics.IndexOf | mainworkingfacefusion.py:144 | the first position of a character, with none before it; `None` exactly when it does not occur |
| Basics.IndexOfAt | mainworkingfacefusion.py:144 | a character found at `i` with none before it is the first occurrence |
| Base64.Encode | mainworkingfacefusion.py:70 | padded encoding: four characters per started group of three bytes, all from the alphabet or `=` |
| Base64.Decode | mainworkingfacefusion.py:145 | the decoder refuses exactly the non-ASCII texts before decoding, and never yields more than three bytes per four characters |
| Base64.Scan | mainworkingfacefusion.py:145 | the scan after the ASCII check never reports a non-ASCII error and yields at most three bytes per four characters it reads |
| Base64.ScanQuad | mainworkingfacefusion.py:145 | a full group of four characters decodes to its three bytes and leaves the scan at a group boundary |
| Base64.ScanLastOne | mainworkingfacefusion.py:145 | a final group `xx==` decodes to its one byte |
| Base64.ScanLastTwo | mainworkingfacefusion.py:145 | a final group `xxx=` decodes to its two bytes |
| Base64.ScanEncode | mainworkingfacefusion.py:145 | the scan gives back every encoded byte string |
| Base64.DecodeEncode | mainworkingfacefusion.py:145 | `b64decode(b64encode(b)) == b` for every byte string |
| Base64.EncodeIsAscii | mainworkingfacefusion.py:70 | encoded text is ASCII, so the decoder accepts it |
| Base64.EncodeLacksComma | mainworkingfacefusion.py:144 | encoded text has no comma, so the split of a payload happens at the prefix |
| UrlQuote.Utf8 | mainworkingfacefusion.py:166 | UTF-8 of one scalar value is 1 to 4 octets, and a single octet exactly for ASCII |
| UrlQuote.Utf8EncodeAscii | mainworkingfacefusion.py:166 | an ASCII text encodes to its own code points |
| UrlQuote.QuoteOctet | mainworkingfacefusion.py:166 | a kept octet stays itself and any other octet becomes `%` and two upper-case hex digits |
| UrlQuote.QuoteBytes | mainworkingfacefusion.py:166 | quoting grows the text at most threefold and leaves only kept characters, `%` and hex digits |
| UrlQuote.UnquoteQuoteBytes | mainworkingfacefusion.py:166 | percent-decoding gives back every quoted octet |
| UrlQuote.Utf8Encode | mainworkingfacefusion.py:166 | a text's UTF-8 encoding is at least as long as the text and at most four times as long |
| UrlQuote.Quote | mainworkingfacefusion.py:166 | quoting takes one to three characters per UTF-8 octet; the result holds only kept characters, `%` and upper-case hex digits, and every `%` opens a triplet naming an octet that is not kept; percent-decoding it gives back the text's UTF-8 octets |
| UrlQuote.QuoteUnique | mainworkingfacefusion.py:166 | no other text of kept characters and escape triplets decodes to the same octets, so the quoting of a text is unique: letters, digits and `_.-~/` are never escaped and every other octet is |
| UrlQuote.QuoteKeepsPlainNames | mainworkingfacefusion.py:166 | a name of kept characters is not changed by quoting |
| Session.Lookup | mainworkingfacefusion.py:48-49 | the value stored under a cookie name; `None` exactly when no cookie has the name |
| Session.GetOrEmpty | mainworkingfacefusion.py:48-49 | `cookies.get(name, '')` is the stored value, and a non-empty result is in the jar |
| Session.CookieHeader | mainworkingfacefusion.py:58 | the header is empty exactly for an empty jar and begins with the first cookie's pair |
| Session.CookieHeaderRoundTrip | mainworkingfacefusion.py:58 | a server that splits the header at `; ` and `=` gets back the whole jar in order |
| Session.StripDashes | mainworkingfacefusion.py:52 | removing dashes leaves no dash and never lengthens the text |
| Session.StripDashesAppend | mainworkingfacefusion.py:52 | removing dashes distributes over concatenation |
| Session.GeneratedHash | mainworkingfacefusion.py:52 | at most 16 characters, no dash, a prefix of the dash-free text, and exactly 16 when that text is long enough |
| Session.GeneratedHashOfUuid | mainworkingfacefusion.py:52 | for a UUID's text the hash is its first three groups, 16 lower-case hex digits |
| Session.ClientSessionHash | mainworkingfacefusion.py:49-52 | a non-empty `session_hash` cookie is the hash; when every such cookie is empty or absent, the hash is the first 16 characters of the UUID text with its dashes removed (all of them when fewer), and holds no dash |
| Session.ClientSessionHashNonEmpty | mainworkingfacefusion.py:49-52 | with a well-formed UUID the session hash is never empty |
| Json.FalsyValues | mainworkingfacefusion.py:137-139 | Python's falsy values are exactly `None`, `False`, `0`, the empty text, the empty list and the empty object |
| Json.GetOrDefault | mainworkingfacefusion.py:102-103 | `dict.get(key, default)` gives the default exactly when the key is absent, `None` for the one-argument form, and the stored value otherwise |
| Protocol.RaisesLastAppend | mainworkingfacefusion.py:86-209 | actions that raise nothing, followed by a handler's actions, still raise only last |
| Protocol.FinishFacts | mainworkingfacefusion.py:190-191 | after result handling, the flag and the close are the last two actions unless handling raised, and then neither happens |
| Protocol.FinishShape | mainworkingfacefusion.py:190-191 | what precedes result handling stays first; the result steps are reports, downloads and writes; the reaction raises exactly when it crashed, and otherwise ends with flag then close, and a crash does neither |
| Protocol.EncodePayload | mainworkingfacefusion.py:70 | a payload starts with the JPEG data-URL prefix, and its length is fixed by the file's length |
| Protocol.B64Decode | mainworkingfacefusion.py:145 | `b64decode` on a text raises `ValueError` exactly for non-ASCII text and otherwise only the decoder's error |
| Protocol.AfterComma | mainworkingfacefusion.py:144 | the text after the first comma; nothing exactly when the text has no comma |
| Protocol.AfterCommaAfter | mainworkingfacefusion.py:144 | a head without a comma, a comma and a rest split back into exactly that rest |
| Protocol.SaveDataUrl | mainworkingfacefusion.py:142-148 | a saved inline result is the decoding of the text after the first comma, written to `fused_image.png`; a comma-less URL raises `ValueError` |
| Protocol.AfterCommaOfPayload | mainworkingfacefusion.py:70 | a payload splits at its prefix's comma into exactly its base64 body |
| Protocol.SaveDataUrlOfPayload | mainworkingfacefusion.py:142-148 | an inline result built like the client's payload is written back byte for byte |
| Protocol.HeadOf | mainworkingfacefusion.py:138-140 | a non-object output raises `AttributeError`; absent or falsy `data` means no data; a non-empty list gives its first element and a non-empty text its first character; a non-empty object raises `KeyError` and a truthy number or boolean `TypeError` |
| Protocol.HeadOfList | mainworkingfacefusion.py:138-140 | an output whose `data` is a non-empty list yields that list's first element |
| Protocol.HeadOfText | mainworkingfacefusion.py:138-140 | an output whose `data` is a non-empty text yields its first character |
| Protocol.FailureReport | test.py:134-139 | the server's error text is reported exactly when the output is an object with a truthy `error`; a falsy output reports that no message came |
| Protocol.FailureReportRaises | test.py:134-139 | the failure branch raises `TypeError` exactly for a truthy number or boolean, a text containing `error`, or a list holding the text `error`; other truthy texts and lists report no message |
| FaceFusion.Setup | mainworkingfacefusion.py:72-74 | the second payload is the bare prefix whatever the second file holds |
| FaceFusion.TrimSlashes | mainworkingfacefusion.py:165 | `rstrip('/')` keeps a prefix that does not end in `/` and removes only slashes |
| FaceFusion.DownloadUrl | mainworkingfacefusion.py:165-167 | the URL is the trimmed service root and `/file=`, followed by a name part of kept characters and escape triplets only, which decodes to the name's UTF-8 octets |
| FaceFusion.DownloadUrlQuotesName | mainworkingfacefusion.py:166-167 | the name part of the URL is exactly `quote(name)` |
| FaceFusion.FileNameOf | mainworkingfacefusion.py:150-161 | inside an `update` wrapper with a non-empty list `value`, the `name` of its first element when that is an object and `AttributeError` otherwise; no file information for an empty or non-list `value`; `name` of the reference itself without the wrapper |
| FaceFusion.HashReplyFields | mainworkingfacefusion.py:93-98 | the `send_hash` reply holds exactly the keys `session_hash`, `fn_index`, `session_id` and `msg`, with the session values and `fn_index` 105 |
| FaceFusion.DataRequestFields | mainworkingfacefusion.py:108-122 | the job request holds exactly its six keys, with `data` the two payloads and a null, a null `event_data` and `msg` `data` |
| FaceFusion.Download | mainworkingfacefusion.py:170-177 | a download first requests its URL, and writes the answer exactly when the request succeeded with status 200 |
| FaceFusion.FetchNamed | mainworkingfacefusion.py:163-179 | a download happens exactly for a non-empty text name, from that name's URL, and its body is written exactly on status 200 |
| FaceFusion.ResolveReference | mainworkingfacefusion.py:150-179 | a reference is downloaded only when a file name is found, and then by its name |
| FaceFusion.ResolveOutput | mainworkingfacefusion.py:138-183 | a write or download needs a first result element that is a data URL or a reference, and a download needs a reference |
| FaceFusion.CompletedBody | mainworkingfacefusion.py:135-189 | result handling only reports, downloads, writes or raises, and raises only last |
| FaceFusion.OnCompleted | mainworkingfacefusion.py:130-191 | the remembered timer is cancelled first; the flag and the close come last unless handling raised; the flag is set exactly when nothing raised |
| FaceFusion.OnObject | mainworkingfacefusion.py:86-206 | one frame sends at most once and exactly on `send_hash` or `send_data`, closes only on the three terminal kinds, and arms a timer exactly on `process_starts` |
| FaceFusion.Step | mainworkingfacefusion.py:80-222 | one event keeps the timer bookkeeping consistent, sets the flag exactly through its actions, and counts one armed timer per `process_starts` |
| FaceFusion.StepFacts | mainworkingfacefusion.py:80-222 | one event raises only last, sends only when asked, closes only on a terminal frame or a live timer, and then also flags unless it raised |
| FaceFusion.OnTimeout | mainworkingfacefusion.py:219-222 | a live timer reports the timeout, closes, then flags, and is no longer live; a cancelled or fired timer does nothing; the timer bookkeeping stays consistent |
| FaceFusion.Run | mainworkingfacefusion.py:80-222 | a whole connection keeps the timer bookkeeping consistent and the flag is set exactly when some event set it |
| FaceFusionProperties.CompletionShape | mainworkingfacefusion.py:130-191 | `process_completed` cancels the remembered timer first, then only reports, downloads and writes; it raises exactly when handling crashed, and otherwise ends with flag then close and sets the flag; a crash neither flags nor closes |
| FaceFusionProperties.SetupSessionHash | mainworkingfacefusion.py:47-52 | the session hash is the server's cookie, or 16 hex digits when the server sent none |
| FaceFusionProperties.SecondFileUnused | mainworkingfacefusion.py:72-74 | the second file's contents play no part in what the client sends |
| FaceFusionProperties.FirstPayloadCarriesFile | mainworkingfacefusion.py:68-70 | the first payload, read back as an inline result, gives the first file's bytes |
| FaceFusionProperties.SendHashAnswered | mainworkingfacefusion.py:90-98 | `send_hash` is answered with the session hash, `fn_index` 105 and the session id, and nothing else changes |
| FaceFusionProperties.SendDataAnswered | mainworkingfacefusion.py:106-122 | `send_data` is answered with the job request: both payloads, a null, `fn_index` and the session values |
| FaceFusionProperties.EstimationReported | mainworkingfacefusion.py:100-104 | an estimation is reported with `unknown` for absent fields and changes nothing |
| FaceFusionProperties.UnknownKindIgnored | mainworkingfacefusion.py:204-206 | any other kind, or none, is reported and changes nothing |
| FaceFusionProperties.NonJsonIgnored | mainworkingfacefusion.py:208-209 | a frame that is not JSON is reported and changes nothing |
| FaceFusionProperties.NonObjectRaises | mainworkingfacefusion.py:87-88 | JSON that is not an object raises `AttributeError` and changes nothing |
| FaceFusionProperties.ProcessStartsArms | mainworkingfacefusion.py:124-128 | `process_starts` arms and remembers a fresh 60-second timer, which on firing reports, closes and flags |
| FaceFusionProperties.StaleTimerIgnored | mainworkingfacefusion.py:219-222 | a cancelled or already fired timer does nothing |
| FaceFusionProperties.CompletionCancelsTimer | mainworkingfacefusion.py:133-134 | `process_completed` cancels the remembered timer, which then never fires |
| FaceFusionProperties.QueueFullEnds | mainworkingfacefusion.py:193-196 | `queue_full` is reported, then the client flags and closes, with every timer left as it was |
| FaceFusionProperties.QueueFullLeavesTimer | mainworkingfacefusion.py:193-196 | `queue_full` flags and closes without cancelling, so a running timer closes and flags a second time |
| FaceFusionProperties.ServerErrorEnds | mainworkingfacefusion.py:198-202 | an `error` frame reports the server's text, `Unknown error` when absent, then flags and closes |
| FaceFusionProperties.InlineResultSaved | mainworkingfacefusion.py:142-148 | an inline result is decoded from after its first comma and written, then the client flags and closes |
| FaceFusionProperties.InlinePngScenario | mainworkingfacefusion.py:142-148 | the inline result `data:image/png;base64,AAAA` writes three zero bytes to `fused_image.png`, then flags and closes |
| FaceFusionProperties.InlineRoundTrip | mainworkingfacefusion.py:142-148 | a result built like the client's own payload is saved byte for byte |
| FaceFusionProperties.ReferenceBody | mainworkingfacefusion.py:163-191 | a named reference is fetched from its URL; then come the write on status 200, the failure report otherwise, or the raise when the request fails |
| FaceFusionProperties.ReferenceDownloaded | mainworkingfacefusion.py:163-177 | the whole `process_completed` reaction to a named reference: cancel, fetch, save on 200, flag and close |
| FaceFusionProperties.DownloadsOnlyNamedReferences | mainworkingfacefusion.py:150-170 | the client downloads exactly when the first result element is a reference with a non-empty text name |
| FaceFusionProperties.WritesOnlyResults | mainworkingfacefusion.py:142-175 | a file is written only from a data URL or a download answered with 200, and only to `fused_image.png` |
| FaceFusionProperties.FailureReported | mainworkingfacefusion.py:184-191 | a failed job with an error text reports it, then flags and closes |
| FaceFusionProperties.CrashOnMissingOutput | mainworkingfacefusion.py:135-138 | a successful completion without `output` raises after the cancellation, without flag or close |
| FaceFusionProperties.CrashOnCommalessDataUrl | mainworkingfacefusion.py:142-144 | a comma-less data URL raises `ValueError` after the cancellation, without flag or close |
| FaceFusionProperties.SendCountAppend | mainworkingfacefusion.py:86-122 | sends count additively over concatenated actions |
| FaceFusionProperties.StepSendCount | mainworkingfacefusion.py:90-122 | one event's actions hold one send exactly when it sends at all |
| FaceFusionProperties.RunSendsPerRequest | mainworkingfacefusion.py:90-122 | over a connection the client sends one frame per `send_hash` or `send_data`, so a repeated `send_data` submits again |
| FaceFusionProperties.NoTerminalGuard | mainworkingfacefusion.py:80-209 | the completion flag does not change how any later event is handled |
| FaceFusionProperties.TimerOverwritten | mainworkingfacefusion.py:124-134 | after two `process_starts` a completion cancels only the second timer, and the first one still fires and closes |
| FaceFusionProperties.OverloadedScenario | mainworkingfacefusion.py:198-202 | an `overloaded` error frame is reported, flagged and closed |
| FaceFusionProperties.PingScenario | mainworkingfacefusion.py:204-206 | a `ping` frame is reported and ignored |
| Reduced.Setup | test.py:44-65 | the session hash is the cookie's value or empty, never generated, and both payloads carry the prefix |
| Reduced.HashReplyFields | test.py:80-84 | the `send_hash` reply holds exactly the keys `session_hash` and `msg` |
| Reduced.DataRequestFields | test.py:94-108 | the job request holds exactly `session_hash`, `data`, `event_data` and `msg`, with `data` the two payloads and a null and a null `event_data` |
| Reduced.CompletedBody | test.py:116-139 | result handling never downloads, and writes only from a successful inline data URL |
| Reduced.OnCompleted | test.py:114-141 | the flag and the close come last unless handling raised; the flag is set exactly when nothing raised |
| Reduced.OnObject | test.py:75-145 | sends exactly on `send_hash` or `send_data`, closes and flags only on `process_completed`, and does both there unless it raised |
| Reduced.Step | test.py:68-156 | one event arms no timer, sends only when asked and closes only on `process_completed` |
| Reduced.Run | test.py:68-156 | over a connection the flag is set exactly when some event set it, and no timer is armed |
| ReducedProperties.NoCookieEmptyHash | test.py:46-49 | without a `session_hash` cookie the client goes on with an empty hash |
| ReducedProperties.SendHashAnswered | test.py:77-84 | `send_hash` is answered with the session hash alone |
| ReducedProperties.SendDataAnswered | test.py:92-108 | `send_data` is answered with both full payloads and no `fn_index` or `session_id` |
| ReducedProperties.PayloadsCarryFiles | test.py:58-65 | both payloads, read back as inline results, give their files' bytes |
| ReducedProperties.ProcessStartsIgnored | test.py:110-112 | `process_starts` does nothing |
| ReducedProperties.UnknownKindIgnored | test.py:143-145 | `queue_full`, `error` and any other unlisted kind are reported as unexpected, and the channel stays open |
| ReducedProperties.EstimationReported | test.py:86-90 | an estimation is reported with `unknown` for absent fields |
| ReducedProperties.NonJsonIgnored | test.py:147-148 | a frame that is not JSON is reported and changes nothing |
| ReducedProperties.CompletionShape | test.py:114-141 | `process_completed` only reports and writes; it raises exactly when handling crashed, and otherwise ends with flag then close and sets the flag; a crash neither flags nor closes |
| ReducedProperties.InlineResultSaved | test.py:123-129 | an inline result is decoded and written, then the client flags and closes |
| ReducedProperties.ReferenceNotFollowed | test.py:130-131 | a structured reference is reported as an unexpected format and nothing is downloaded |
| ReducedProperties.FailureReported | test.py:134-141 | a failed job with an error text reports it, then flags and closes |
| ReducedProperties.CrashOnMissingOutput | test.py:116-119 | a successful completion without `output` raises without flag or close |
| ReducedProperties.CrashOnCommalessDataUrl | test.py:123-125 | a comma-less data URL raises `ValueError` without flag or close |
| ReducedProperties.ClosesOnlyOnCompletion | test.py:68-156 | over a whole connection the channel is closed only if a `process_completed` frame arrived |
| StatusClient.FusedImage | tempCodeRunnerFile.py:43 | `data.get('fused_image')` is the stored value of a parsed object frame, and anything other than `None` comes from such a frame |
| StatusClient.SaveFused | tempCodeRunnerFile.py:43-53 | image data is written as decoded and then the channel is closed; a non-text value or a rejected text raises first |
| StatusClient.Step | tempCodeRunnerFile.py:34-60 | nothing is sent; the channel closes only on `completed` or `error`, and then last unless it raised; only a completed frame with image data writes |
| StatusClientProperties.ProgressReported | tempCodeRunnerFile.py:39-41 | a progress frame reports its `progress`, 0 when absent |
| StatusClientProperties.CompletedSaved | tempCodeRunnerFile.py:42-53 | a completed frame carrying the base64 text of some bytes writes those bytes to `fused_image.jpg`, then closes |
| StatusClientProperties.EncodedImageSaved | tempCodeRunnerFile.py:44-50 | saving the base64 text of some bytes writes those bytes |
| StatusClientProperties.CompletedDecoded | tempCodeRunnerFile.py:43-53 | a decodable image text is written as decoded, and a rejected one raises before anything is written or closed |
| StatusClientProperties.CompletedWithoutImage | tempCodeRunnerFile.py:51-53 | a completed frame without image data reports it and closes |
| StatusClientProperties.CompletedNonTextRaises | tempCodeRunnerFile.py:44-46 | image data that is not text raises `TypeError` in the decoder |
| StatusClientProperties.ErrorReported | tempCodeRunnerFile.py:54-56 | an error frame reports its `message` and closes |
| StatusClientProperties.UnknownStatusIgnored | tempCodeRunnerFile.py:57-58 | any other status, or none, is reported and changes nothing |
| StatusClientProperties.NonJsonIgnored | tempCodeRunnerFile.py:59-60 | a frame that is not JSON is reported and changes nothing |

## Left out

- The HTTP handshake before the channel opens (`session.get(app_url)` and its status check) is left out. So are the file-existence checks and `exit()`. The cookie jar the handshake yields is a parameter.
- The upload client's `upload_images`, the multipart POST, is left out. It runs on its own thread and its outcome is only printed.
- Transport, threads and time are left out: the websocket library, `run_forever`, SSL options, the main thread's waiting loop and `KeyboardInterrupt`. Events arrive one at a time in the order given. A timer's expiry is an event the caller places.
- What the websocket library does after a handler raises is left out. The model stops at the `Raise` action.
- Prints are modelled as `Log` notes only where they report an outcome or a value from the server: the estimation, an unexpected kind or status, a non-JSON frame, `queue_full`, the server's error, the failure report, a missing or unexpected result, a missing file name, a failed download, a saved file, the timeout, progress, a missing fused image and a status error. Bare announcements (`Received send_hash message.`, `Received send_data message.`, `Process has started.`, `Process completed.`) are left out. So are the line `Downloading image from …`, whose URL the `HttpGet` action carries, the raw-message prints, the pretty-printed JSON and every print's exact text.
- JSON text parsing is left out. A frame is either text the parser refused or the value it produced. Numbers are integers, because the handlers only print or test them.
- File reads and writes are left out. File contents are parameters and a write is an action.
- Environment variables are left out. The service URL is a parameter.
- `uuid.uuid4()` is left out, because it is random. Its text is a parameter.
- The upload client's `on_error`, `on_close` and `on_open`, and every client's `on_open`, are left out: they only print.
- Session.CookieHeaderRoundTrip: holds only for jars whose names lack `=` and `;` and whose values lack `;`. Other jars make a header that cannot be split back unambiguously.
- Base64.Decode: models the lenient decoder of CPython 3.11 and later. The decoders of older versions are not modelled.
- UrlQuote.Utf8: every Dafny `char` is a Unicode scalar value, so the `UnicodeEncodeError` that a lone surrogate would raise in `quote` is not modelled.

=== FILE: base64.dfy ===
/**
 Base64 as the client uses it: the encoder of section 4 of RFC 4648 (with
 `=` padding, as Python's `base64.b64encode`), and the decoder behind
 Python's `base64.b64decode` in its default, non-validating mode.

 The decoder reads the text one character at a time. Characters outside
 the alphabet are skipped. A `=` that completes a quantum of four ends the
 scan, and whatever follows is ignored. Leftover characters at the end are
 an error: "one more than a multiple of 4" for a single data character,
 "incorrect padding" otherwise. Text that is not pure ASCII is refused
 before decoding starts.
 */
module Base64 {
  import opened Basics

  /** The 64 characters of the alphabet in table 1 of RFC 4648. */
  predicate IsAlphabetChar(c: char) {
    ('A' <= c <= 'Z') || ('a' <= c <= 'z') || ('0' <= c <= '9') || c == '+' || c == '/'
  }

  /** The 6-bit value a character of the alphabet stands for. */
  function ValueOf(c: char): (v: int)
    requires IsAlphabetChar(c)
    ensures 0 <= v < 64
  {
    if 'A' <= c <= 'Z' then c as int - 'A' as int
    else if 'a' <= c <= 'z' then c as int - 'a' as int + 26
    else if '0' <= c <= '9' then c as int - '0' as int + 52
    else if c == '+' then 62
    else 63
  }

  /** The character of the alphabet that stands for a 6-bit value. */
  function CharOf(v: int): (c: char)
    requires 0 <= v < 64
    ensures IsAlphabetChar(c)
    ensures ValueOf(c) == v
  {
    if v < 26 then ('A' as int + v) as char
    else if v < 52 then ('a' as int + (v - 26)) as char
    else if v < 62 then ('0' as int + (v - 52)) as char
    else if v == 62 then '+'
    else '/'
  }

  /** Four characters for three whole bytes. */
  function Quad(x: byte, y: byte, z: byte): string {
    [CharOf(x / 4), CharOf(x % 4 * 16 + y / 16), CharOf(y % 16 * 4 + z / 64), CharOf(z % 64)]
  }

  /** `base64.b64encode(b).decode()`: padded encoding of section 4 of RFC 4648. */
  function Encode(b: seq<byte>): (r: string)
    ensures |r| == (|b| + 2) / 3 * 4
    ensures forall i :: 0 <= i < |r| ==> IsAlphabetChar(r[i]) || r[i] == '='
    decreases |b|
  {
    if |b| == 0 then ""
    else if |b| == 1 then [CharOf(b[0] / 4), CharOf(b[0] % 4 * 16), '=', '=']
    else if |b| == 2 then [CharOf(b[0] / 4), CharOf(b[0] % 4 * 16 + b[1] / 16), CharOf(b[1] % 16 * 4), '=']
    else Quad(b[0], b[1], b[2]) + Encode(b[3..])
  }

  datatype DecodeError =
    | NotAscii          // refused before decoding: the text is not ASCII
    | OneExtraChar      // a single data character is left over at the end
    | IncorrectPadding  // two or three data characters are left over without enough `=`

  /** How many leftover bits a partly read quantum can carry. */
  predicate LeftoverFits(q: nat, left: nat) {
    q < 4 &&
    (q == 0 ==> left == 0) &&
    (q == 1 ==> left < 64) &&
    (q == 2 ==> left < 16) &&
    (q == 3 ==> left < 4)
  }

  function Prepend(x: byte, r: Result<seq<byte>, DecodeError>): Result<seq<byte>, DecodeError> {
    if r.Ok? then Ok([x] + r.value) else r
  }

  /**
   The decoder's scan over the rest `s` of the text. `q` counts the data
   characters of the current quantum read so far, `left` holds their bits
   not yet emitted, and `pads` counts the `=` seen since the last data
   character (only once two data characters of the quantum are in).
   */
  function Scan(s: string, q: nat, left: nat, pads: nat): (r: Result<seq<byte>, DecodeError>)
    requires LeftoverFits(q, left)
    ensures r.Err? ==> r.error != NotAscii
    ensures r.Ok? ==> |r.value| * 4 <= |s| * 3 + (if q == 0 then 0 else 4 - q)
    decreases |s|
  {
    if |s| == 0 then
      if q == 0 then Ok([])
      else if q == 1 then Err(OneExtraChar)
      else Err(IncorrectPadding)
    else if s[0] == '=' then
      if q >= 2 && q + pads + 1 >= 4 then Ok([])
      else Scan(s[1..], q, left, if q >= 2 then pads + 1 else pads)
    else if !IsAlphabetChar(s[0]) then
      Scan(s[1..], q, left, pads)
    else
      var v := ValueOf(s[0]);
      if q == 0 then Scan(s[1..], 1, v, 0)
      else if q == 1 then Prepend(left * 4 + v / 16, Scan(s[1..], 2, v % 16, 0))
      else if q == 2 then Prepend(left * 16 + v / 4, Scan(s[1..], 3, v % 4, 0))
      else Prepend(left * 64 + v, Scan(s[1..], 0, 0, 0))
  }

  predicate IsAscii(s: string) {
    forall i :: 0 <= i < |s| ==> s[i] as int < 128
  }

  /** `base64.b64decode(s)` for a text argument. */
  function Decode(s: string): (r: Result<seq<byte>, DecodeError>)
    ensures r.Err? && r.error == NotAscii <==> !IsAscii(s)
    ensures r.Ok? ==> |r.value| * 4 <= |s| * 3
  {
    if !IsAscii(s) then Err(NotAscii) else Scan(s, 0, 0, 0)
  }

  /** The bit arithmetic that makes a decoded quantum give back its three bytes. */
  lemma QuadArithmetic(x: byte, y: byte, z: byte)
    ensures (x % 4 * 16 + y / 16) / 16 == x % 4
    ensures (x % 4 * 16 + y / 16) % 16 == y / 16
    ensures (y % 16 * 4 + z / 64) / 4 == y % 16
    ensures (y % 16 * 4 + z / 64) % 4 == z / 64
    ensures x / 4 * 4 + x % 4 == x
    ensures y / 16 * 16 + y % 16 == y
    ensures z / 64 * 64 + z % 64 == z
  {
  }

  /** One data character of the alphabet, read in quantum position `q`. */
  lemma ScanData(s: string, q: nat, left: nat, pads: nat)
    requires |s| > 0 && IsAlphabetChar(s[0]) && LeftoverFits(q, left)
    ensures var v := ValueOf(s[0]);
            Scan(s, q, left, pads) ==
              if q == 0 then Scan(s[1..], 1, v, 0)
              else if q == 1 then Prepend(left * 4 + v / 16, Scan(s[1..], 2, v % 16, 0))
              else if q == 2 then Prepend(left * 16 + v / 4, Scan(s[1..], 3, v % 4, 0))
              else Prepend(left * 64 + v, Scan(s[1..], 0, 0, 0))
  {
  }

  /** The first character of a quantum carries the top six bits of `x`. */
  lemma ScanFirst(x: byte, rest: string)
    ensures Scan([CharOf(x / 4)] + rest, 0, 0, 0) == Scan(rest, 1, x / 4, 0)
  {
    var s := [CharOf(x / 4)] + rest;
    assert s[0] == CharOf(x / 4) && s[1..] == rest;
    ScanData(s, 0, 0, 0);
  }

  /** The second character completes `x` and starts `y`. */
  lemma ScanSecond(x: byte, y: byte, rest: string)
    ensures Scan([CharOf(x % 4 * 16 + y / 16)] + rest, 1, x / 4, 0) == Prepend(x, Scan(rest, 2, y / 16, 0))
  {
    var s := [CharOf(x % 4 * 16 + y / 16)] + rest;
    assert s[0] == CharOf(x % 4 * 16 + y / 16) && s[1..] == rest;
    ScanData(s, 1, x / 4, 0);
    QuadArithmetic(x, y, 0);
  }

  /** The third character completes `y` and starts `z`. */
  lemma ScanThird(y: byte, z: byte, rest: string)
    ensures Scan([CharOf(y % 16 * 4 + z / 64)] + rest, 2, y / 16, 0) == Prepend(y, Scan(rest, 3, z / 64, 0))
  {
    var s := [CharOf(y % 16 * 4 + z / 64)] + rest;
    assert s[0] == CharOf(y % 16 * 4 + z / 64) && s[1..] == rest;
    ScanData(s, 2, y / 16, 0);
    QuadArithmetic(0, y, z);
  }

  /** The fourth character completes `z` and ends the quantum. */
  lemma ScanFourth(z: byte, rest: string)
    ensures Scan([CharOf(z % 64)] + rest, 3, z / 64, 0) == Prepend(z, Scan(rest, 0, 0, 0))
  {
    var s := [CharOf(z % 64)] + rest;
    assert s[0] == CharOf(z % 64) && s[1..] == rest;
    ScanData(s, 3, z / 64, 0);
    QuadArithmetic(0, 0, z);
  }

  /** A whole quantum decodes to its three bytes and leaves the scan where it started. */
  lemma ScanQuad(x: byte, y: byte, z: byte, rest: string)
    ensures Scan(Quad(x, y, z) + rest, 0, 0, 0) == Prepend(x, Prepend(y, Prepend(z, Scan(rest, 0, 0, 0))))
  {
    var t3 := [CharOf(z % 64)] + rest;
    var t2 := [CharOf(y % 16 * 4 + z / 64)] + t3;
    var t1 := [CharOf(x % 4 * 16 + y / 16)] + t2;
    assert Quad(x, y, z) + rest == [CharOf(x / 4)] + t1;
    ScanFirst(x, t1);
    ScanSecond(x, y, t2);
    ScanThird(y, z, t3);
    ScanFourth(z, rest);
  }

  /** The final quantum for a single leftover byte: two characters and `==`. */
  lemma ScanLastOne(x: byte)
    ensures Scan(Encode([x]), 0, 0, 0) == Ok([x])
  {
    var t1 := [CharOf(x % 4 * 16 + 0 / 16)] + "==";
    assert Encode([x]) == [CharOf(x / 4)] + t1;
    assert "=="[1..] == "=";
    assert Scan("=", 2, 0, 1) == Ok([]);
    assert Scan("==", 2, 0, 0) == Ok([]);
    ScanFirst(x, t1);
    ScanSecond(x, 0, "==");
    assert [x] + [] == [x];
  }

  /** The final quantum for two leftover bytes: three characters and `=`. */
  lemma ScanLastTwo(x: byte, y: byte)
    ensures Scan(Encode([x, y]), 0, 0, 0) == Ok([x, y])
  {
    var t2 := [CharOf(y % 16 * 4 + 0 / 64)] + "=";
    var t1 := [CharOf(x % 4 * 16 + y / 16)] + t2;
    assert Encode([x, y]) == [CharOf(x / 4)] + t1;
    assert Scan("=", 3, 0, 0) == Ok([]);
    ScanFirst(x, t1);
    ScanSecond(x, y, t2);
    ScanThird(y, 0, "=");
    assert [y] + [] == [y];
    assert [x] + [y] == [x, y];
  }

  /** Decoding undoes encoding, for every byte string (RFC 4648, section 4). */
  lemma {:induction false} ScanEncode(b: seq<byte>)
    ensures Scan(Encode(b), 0, 0, 0) == Ok(b)
    decreases |b|
  {
    if |b| == 0 {
    } else if |b| == 1 {
      assert b == [b[0]];
      ScanLastOne(b[0]);
    } else if |b| == 2 {
      assert b == [b[0], b[1]];
      ScanLastTwo(b[0], b[1]);
    } else {
      assert Encode(b) == Quad(b[0], b[1], b[2]) + Encode(b[3..]);
      ScanQuad(b[0], b[1], b[2], Encode(b[3..]));
      ScanEncode(b[3..]);
      assert b == [b[0]] + ([b[1]] + ([b[2]] + b[3..]));
    }
  }

  /** Encoded text is ASCII, so the decoder does not refuse it. */
  lemma EncodeIsAscii(b: seq<byte>)
    ensures IsAscii(Encode(b))
  {
    var r := Encode(b);
    forall i | 0 <= i < |r|
      ensures r[i] as int < 128
    {
      assert IsAlphabetChar(r[i]) || r[i] == '=';
    }
  }

  /** The round trip through Python's decoder. */
  lemma DecodeEncode(b: seq<byte>)
    ensures Decode(Encode(b)) == Ok(b)
  {
    EncodeIsAscii(b);
    ScanEncode(b);
  }

  /** Encoded text never contains a comma, so it can follow a data-URL header. */
  lemma EncodeLacksComma(b: seq<byte>)
    ensures Lacks(Encode(b), ',')
  {
    var r := Encode(b);
    forall k | 0 <= k < |r|
      ensures r[k] != ','
    {
      assert IsAlphabetChar(r[k]) || r[k] == '=';
    }
  }

  /** Three zero bytes encode as four `A`s. */
  lemma EncodeZeros(b: seq<byte>)
    requires b == [0, 0, 0]
    ensures Encode(b) == "AAAA"
  {
    assert Encode(b[3..]) == "" by {
      assert |b[3..]| == 0;
    }
    assert Encode(b) == Quad(b[0], b[1], b[2]) + Encode(b[3..]);
    QuadOfZero(b[0], b[1], b[2]);
    ZeroChars(CharOf(0));
  }

  lemma QuadOfZero(x: byte, y: byte, z: byte)
    requires x == 0 && y == 0 && z == 0
    ensures Quad(x, y, z) == [CharOf(0), CharOf(0), CharOf(0), CharOf(0)]
  {
    assert x / 4 == 0 && x % 4 * 16 + y / 16 == 0 && y % 16 * 4 + z / 64 == 0 && z % 64 == 0;
  }

  lemma ZeroChars(a: char)
    requires a == CharOf(0)
    ensures [a, a, a, a] == "AAAA"
  {
  }
}

=== FILE: basics.dfy ===
/**
 Small vocabulary shared by every module of the model: bytes, optional
 values, results, and the two string searches the client relies on
 (`str.startswith` and the first occurrence of a character).
 */
module Basics {

  /** One octet, as read from or written to a file. */
  type byte = x: int | 0 <= x < 256

  datatype Option<+T> = None | Some(value: T)

  datatype Result<+T, +E> = Ok(value: T) | Err(error: E)

  /** Python's `s.startswith(p)`. */
  predicate StartsWith(s: string, p: string) {
    |p| <= |s| && s[..|p|] == p
  }

  /** Index of the first occurrence of `c` in `s`, if there is one. */
  function IndexOf(s: string, c: char): (r: Option<nat>)
    ensures r.Some? ==> r.value < |s| && s[r.value] == c
    ensures r.Some? ==> forall k :: 0 <= k < r.value ==> s[k] != c
    ensures r.None? ==> forall k :: 0 <= k < |s| ==> s[k] != c
    decreases |s|
  {
    if |s| == 0 then None
    else if s[0] == c then Some(0)
    else match IndexOf(s[1..], c)
      case None => None
      case Some(i) => Some(i + 1)
  }

  /** `c` occurs nowhere in `s`. */
  predicate Lacks(s: string, c: char) {
    forall k :: 0 <= k < |s| ==> s[k] != c
  }

  /** A concatenation lacks a character when both parts do. */
  lemma LacksAppend(a: string, b: string, c: char)
    requires Lacks(a, c) && Lacks(b, c)
    ensures Lacks(a + b, c)
  {
    forall k | 0 <= k < |a + b|
      ensures (a + b)[k] != c
    {
      if k >= |a| {
        assert (a + b)[k] == b[k - |a|];
      }
    }
  }

  /** The first occurrence of a character in a concatenation is found in
      the second part when the first part lacks it. */
  lemma {:induction false} IndexOfAppend(a: string, b: string, c: char)
    requires Lacks(a, c)
    ensures IndexOf(a + b, c) == match IndexOf(b, c)
                                 case None => None
                                 case Some(i) => Some(|a| + i)
    decreases |a|
  {
    if |a| == 0 {
      assert a + b == b;
    } else {
      assert (a + b)[0] == a[0];
      assert (a + b)[1..] == a[1..] + b;
      IndexOfAppend(a[1..], b, c);
    }
  }

  /** A character's first occurrence is where it occurs with none before it. */
  lemma IndexOfAt(s: string, i: nat, c: char)
    requires i < |s| && s[i] == c && Lacks(s[..i], c)
    ensures IndexOf(s, c) == Some(i)
  {
    forall k | 0 <= k < i
      ensures s[k] != c
    {
      assert s[..i][k] == s[k];
    }
  }
}

=== FILE: facefusion.dfy ===
/**
 The full queue-join client (`mainworkingfacefusion.py`): frames carry
 `fn_index` and `session_id`, a timer bounds the wait after
 `process_starts`, and a successful result is either an inline data URL
 or a reference to a file on the service, which is downloaded.

 The handler has no guard against frames that arrive after completion,
 and a repeated `process_starts` replaces the remembered timer without
 cancelling the one already running; the model keeps both behaviours.
 */
module FaceFusion {
  import opened Basics
  import opened Json
  import opened Protocol
  import Session
  import UrlQuote

  const FnIndex: int := 105
  const ProcessTimeout: nat := 60

  /** What `main` has computed by the time the channel opens. */
  datatype Env = Env(sessionHash: string, sessionId: string, image1: string, image2: string, appUrl: string)

  /**
   `main` before the channel opens: session values from the cookie jar,
   and the two payloads. The second file is read once into a variable that
   is never used and then read again at its end, so the second payload
   encodes no bytes at all.
   */
  function Setup(jar: Session.Jar, uuidText: string, file1: seq<byte>, file2: seq<byte>, appUrl: string): (env: Env)
    ensures env.image2 == JpegPrefix
  {
    var secondRead: seq<byte> := [];
    Env(Session.ClientSessionHash(jar, uuidText), Session.GetOrEmpty(jar, "session_id"),
        EncodePayload(file1), EncodePayload(secondRead), appUrl)
  }

  /**
   The handler's memory. `timer` is `process_timer`: the timer started
   last, never reset. `live` holds the timers started and neither cancelled
   nor expired; `armed` counts the timers started so far, which are
   numbered from 0.
   */
  datatype State = State(done: bool, timer: Option<nat>, live: set<nat>, armed: nat)

  const Initial: State := State(false, None, {}, 0)

  predicate Valid(s: State) {
    (forall id :: id in s.live ==> id < s.armed) &&
    (s.timer.None? <==> s.armed == 0) &&
    (s.timer.Some? ==> s.timer.value == s.armed - 1)
  }

  datatype Reaction = Reaction(next: State, actions: seq<Action>)

  // ---------------------------------------------------------------------
  // Outbound frames

  /** The answer to `send_hash`. */
  function HashReply(env: Env): Value {
    Obj(map["session_hash" := Str(env.sessionHash), "fn_index" := Num(FnIndex),
            "session_id" := Str(env.sessionId), "msg" := Str("send_hash")])
  }

  /** The answer to `send_data`. */
  function DataRequest(env: Env): Value {
    Obj(map["fn_index" := Num(FnIndex), "data" := Arr([Str(env.image1), Str(env.image2), Null]),
            "event_data" := Null, "session_hash" := Str(env.sessionHash),
            "session_id" := Str(env.sessionId), "msg" := Str("data")])
  }

  /** The hash answer has exactly four fields: its kind, the function
      index and the two session values a server reads back. */
  lemma HashReplyFields(env: Env)
    ensures var r := HashReply(env);
            r.Obj? && r.fields.Keys == {"session_hash", "fn_index", "session_id", "msg"} &&
            Get(r.fields, "msg") == Str("send_hash") && Get(r.fields, "fn_index") == Num(FnIndex) &&
            Get(r.fields, "session_hash") == Str(env.sessionHash) && Get(r.fields, "session_id") == Str(env.sessionId)
  {
  }

  /** The data answer carries the two payloads and an empty third input,
      no event data, and the same session values. */
  lemma DataRequestFields(env: Env)
    ensures var r := DataRequest(env);
            r.Obj? && r.fields.Keys == {"fn_index", "data", "event_data", "session_hash", "session_id", "msg"} &&
            Get(r.fields, "msg") == Str("data") && Get(r.fields, "fn_index") == Num(FnIndex) &&
            Get(r.fields, "data") == Arr([Str(env.image1), Str(env.image2), Null]) &&
            Get(r.fields, "event_data") == Null &&
            Get(r.fields, "session_hash") == Str(env.sessionHash) && Get(r.fields, "session_id") == Str(env.sessionId)
  {
  }

  // ---------------------------------------------------------------------
  // Downloading a referenced result

  /** `s.rstrip('/')`. */
  function TrimSlashes(s: string): (r: string)
    ensures StartsWith(s, r)
    ensures r == "" || r[|r| - 1] != '/'
    ensures forall k :: |r| <= k < |s| ==> s[k] == '/'
    decreases |s|
  {
    if |s| > 0 && s[|s| - 1] == '/' then TrimSlashes(s[..|s| - 1]) else s
  }

  /** `f"{app_url.rstrip('/')}/file={urllib.parse.quote(name)}"`: the
      service root without trailing slashes, then `/file=`, then a quoted
      name (kept characters and escape triplets only) that the service
      decodes back to the name's UTF-8 octets. */
  function DownloadUrl(appUrl: string, name: string): (url: string)
    ensures StartsWith(url, TrimSlashes(appUrl) + "/file=")
    ensures UrlQuote.WellQuoted(url[|TrimSlashes(appUrl)| + 6..])
    ensures UrlQuote.UnquoteBytes(url[|TrimSlashes(appUrl)| + 6..]) == UrlQuote.Utf8Encode(name)
  {
    var base := TrimSlashes(appUrl) + "/file=";
    var url := base + UrlQuote.Quote(name);
    assert url[..|base|] == base;
    assert url[|base|..] == UrlQuote.Quote(name);
    url
  }

  /** The name part of a download URL is exactly `quote(name)`: a `?` or
      `#` in the name never reaches the service unescaped. */
  lemma DownloadUrlQuotesName(appUrl: string, name: string)
    ensures DownloadUrl(appUrl, name)[|TrimSlashes(appUrl)| + 6..] == UrlQuote.Quote(name)
  {
    UrlQuote.QuoteUnique(name, DownloadUrl(appUrl, name)[|TrimSlashes(appUrl)| + 6..]);
  }

  datatype NameLookup = Found(name: Value) | NoInfo | NameError(error: PyError)

  /** The file name of a structured reference: `value[0].name` inside an
      `update` wrapper, `name` otherwise. */
  function FileNameOf(ref: map<string, Value>): (r: NameLookup)
    ensures Get(ref, "__type__") != Str("update") ==> r == Found(Get(ref, "name"))
    ensures r.NoInfo? <==> Get(ref, "__type__") == Str("update") &&
                           !(Get(ref, "value").Arr? && |Get(ref, "value").items| > 0)
    ensures r.NameError? ==> r.error == AttributeError
    ensures Get(ref, "__type__") == Str("update") && r.Found? ==>
              (var items := Get(ref, "value").items;
               |items| > 0 && items[0].Obj? && r.name == Get(items[0].fields, "name"))
    ensures Get(ref, "__type__") == Str("update") && Get(ref, "value").Arr? && |Get(ref, "value").items| > 0 ==>
              (var info := Get(ref, "value").items[0];
               (info.Obj? ==> r == Found(Get(info.fields, "name"))) &&
               (!info.Obj? ==> r == NameError(AttributeError)))
  {
    if Get(ref, "__type__") == Str("update") then
      var value := Get(ref, "value");
      if value.Arr? && |value.items| > 0 then
        match value.items[0]
        case Obj(info) => Found(Get(info, "name"))
        case _ => NameError(AttributeError)
      else NoInfo
    else Found(Get(ref, "name"))
  }

  /** Facts every way of handling a result keeps. */
  predicate ResolverFacts(acts: seq<Action>, fetch: string -> HttpResponse) {
    ResolverOnly(acts) && RaisesLast(acts) &&
    (forall i :: 0 <= i < |acts| && acts[i].WriteFile? ==> acts[i].path == PngOutput) &&
    (forall i, j :: 0 <= i < j < |acts| && acts[i].WriteFile? ==> !acts[j].WriteFile?) &&
    (forall i, j :: 0 <= i < |acts| && 0 <= j < |acts| && acts[i].HttpGet? && acts[j].WriteFile? ==>
       i < j && fetch(acts[i].url) == Response(200, acts[j].bytes))
  }

  /** Downloading the named file and saving it on status 200. */
  function FetchNamed(appUrl: string, name: Value, fetch: string -> HttpResponse): (acts: seq<Action>)
    ensures ResolverFacts(acts, fetch)
    ensures Fetches(acts) <==> Truthy(name) && name.Str?
    ensures Fetches(acts) ==> acts[0] == HttpGet(DownloadUrl(appUrl, name.s))
    ensures Writes(acts) <==> Fetches(acts) && fetch(acts[0].url).Response? && fetch(acts[0].url).status == 200
  {
    if !Truthy(name) then [Log(FileNameNotFound)]
    else if !name.Str? then [Raise(TypeError)]
    else Download(DownloadUrl(appUrl, name.s), fetch)
  }

  /** `requests.get(url)`, then the status check and the write. */
  function Download(url: string, fetch: string -> HttpResponse): (acts: seq<Action>)
    ensures ResolverFacts(acts, fetch)
    ensures |acts| > 0 && acts[0] == HttpGet(url) && Fetches(acts)
    ensures Writes(acts) <==> fetch(url).Response? && fetch(url).status == 200
  {
    var acts := match fetch(url)
      case Unreachable => [HttpGet(url), Raise(RequestError)]
      case Response(status, body) =>
        if status == 200 then [HttpGet(url), WriteFile(PngOutput, body), Log(Saved(PngOutput))]
        else [HttpGet(url), Log(DownloadFailed(status))];
    assert acts[0].HttpGet?;
    assert |acts| == 3 ==> acts[1].WriteFile?;
    acts
  }

  /** A structured reference: find the file name, then download it. */
  function ResolveReference(appUrl: string, ref: map<string, Value>, fetch: string -> HttpResponse): (acts: seq<Action>)
    ensures ResolverFacts(acts, fetch)
    ensures Fetches(acts) ==> FileNameOf(ref).Found?
    ensures FileNameOf(ref).Found? ==> acts == FetchNamed(appUrl, FileNameOf(ref).name, fetch)
  {
    match FileNameOf(ref)
    case NameError(e) => [Raise(e)]
    case NoInfo => [Log(NoFileInfo), Log(FileNameNotFound)]
    case Found(name) => FetchNamed(appUrl, name, fetch)
  }

  /** The `success` branch of `process_completed`. */
  function ResolveOutput(appUrl: string, output: Value, fetch: string -> HttpResponse): (acts: seq<Action>)
    ensures ResolverFacts(acts, fetch)
    ensures Writes(acts) || Fetches(acts) ==>
              HeadOf(output).First? && (IsDataUrl(HeadOf(output).item) || HeadOf(output).item.Obj?)
    ensures Fetches(acts) ==> HeadOf(output).item.Obj?
  {
    match HeadOf(output)
    case Broken(e) => [Raise(e)]
    case NoData => [Log(NoOutputData)]
    case First(item) =>
      if IsDataUrl(item) then SaveDataUrl(item.s)
      else if item.Obj? then ResolveReference(appUrl, item.fields, fetch)
      else [Log(UnexpectedOutputFormat)]
  }

  /** What `process_completed` does with the result, by the `success` flag. */
  function CompletedBody(appUrl: string, d: map<string, Value>, fetch: string -> HttpResponse): (acts: seq<Action>)
    ensures ResolverOnly(acts) && RaisesLast(acts)
  {
    var output := Get(d, "output");
    if Truthy(GetOr(d, "success", Bool(false))) then ResolveOutput(appUrl, output, fetch)
    else FailureReport(output)
  }

  /** The cancellation `process_completed` begins with: the remembered
      timer, if any. */
  function Cancel(s: State): seq<Action> {
    if s.timer.Some? then [CancelTimer(s.timer.value)] else []
  }

  /** `process_completed`: cancel the remembered timer, handle the result,
      then set the completion flag and close, unless handling raised. */
  function OnCompleted(env: Env, s: State, d: map<string, Value>, fetch: string -> HttpResponse): (r: Reaction)
    ensures RaisesLast(r.actions) && !HasSend(r.actions) && !ArmsTimer(r.actions)
    ensures s.timer.Some? ==> |r.actions| > 0 && r.actions[0] == CancelTimer(s.timer.value) &&
                              r.next.live == s.live - {s.timer.value}
    ensures s.timer.None? ==> r.next.live == s.live
    ensures !Crashed(r.actions) ==> |r.actions| >= 2 && r.actions[|r.actions| - 2..] == [SetDone, Close]
    ensures Crashed(r.actions) ==> SetDone !in r.actions && Close !in r.actions
    ensures r.next.done == (s.done || !Crashed(r.actions))
    ensures r.next.timer == s.timer && r.next.armed == s.armed
  {
    var cancel := Cancel(s);
    var s1 := if s.timer.Some? then s.(live := s.live - {s.timer.value}) else s;
    var body := CompletedBody(env.appUrl, d, fetch);
    ResolverOnlyIsQuiet(body);
    FinishFacts(cancel, body);
    if Crashed(body) then Reaction(s1, cancel + Finish(body))
    else Reaction(s1.(done := true), cancel + Finish(body))
  }

  /** The branches of `on_message` for a JSON object. */
  function OnObject(env: Env, s: State, d: map<string, Value>, fetch: string -> HttpResponse): (r: Reaction)
    ensures RaisesLast(r.actions) && AtMostOneSend(r.actions)
    ensures Valid(s) ==> Valid(r.next)
    ensures r.next.done == (s.done || SetDone in r.actions)
    ensures HasSend(r.actions) <==> Get(d, "msg") in {Str("send_hash"), Str("send_data")}
    ensures Close in r.actions ==> Get(d, "msg") in {Str("process_completed"), Str("queue_full"), Str("error")}
    ensures Get(d, "msg") in {Str("process_completed"), Str("queue_full"), Str("error")} && !Crashed(r.actions) ==>
              Close in r.actions && SetDone in r.actions
    ensures ArmsTimer(r.actions) <==> Get(d, "msg") == Str("process_starts")
    ensures r.next.armed == s.armed + (if Get(d, "msg") == Str("process_starts") then 1 else 0)
  {
    var kind := Get(d, "msg");
    if kind == Str("send_hash") then
      var r := Reaction(s, [Send(HashReply(env))]);
      assert r.actions[0].Send?;
      r
    else if kind == Str("estimation") then
      Reaction(s, [Log(Estimation(GetOr(d, "rank_eta", Str("unknown")), GetOr(d, "queue_size", Str("unknown"))))])
    else if kind == Str("send_data") then
      var r := Reaction(s, [Send(DataRequest(env))]);
      assert r.actions[0].Send?;
      r
    else if kind == Str("process_starts") then
      var r := Reaction(s.(timer := Some(s.armed), live := s.live + {s.armed}, armed := s.armed + 1),
                        [ArmTimer(s.armed, ProcessTimeout)]);
      assert r.actions[0].ArmTimer?;
      r
    else if kind == Str("process_completed") then OnCompleted(env, s, d, fetch)
    else if kind == Str("queue_full") then Reaction(s.(done := true), [Log(QueueFull), SetDone, Close])
    else if kind == Str("error") then
      Reaction(s.(done := true), [Log(ServerError(GetOr(d, "error", Str("Unknown error")))), SetDone, Close])
    else Reaction(s, [Log(UnexpectedKind(kind))])
  }

  /** `on_process_timeout`, run by a timer that has neither been cancelled
      nor fired before. */
  function OnTimeout(s: State, id: nat): (r: Reaction)
    ensures id in s.live ==> r.actions == [Log(TimedOut(ProcessTimeout)), Close, SetDone] &&
                             r.next.done && r.next.live == s.live - {id} &&
                             r.next.timer == s.timer && r.next.armed == s.armed
    ensures id !in s.live ==> r == Reaction(s, [])
    ensures id !in r.next.live
    ensures Valid(s) ==> Valid(r.next)
  {
    if id in s.live then Reaction(s.(done := true, live := s.live - {id}), [Log(TimedOut(ProcessTimeout)), Close, SetDone])
    else Reaction(s, [])
  }

  /** The events that close the channel. */
  predicate Ends(s: State, e: Event) {
    IsKind(e, "process_completed") || IsKind(e, "queue_full") || IsKind(e, "error") ||
    (e.TimerFired? && e.id in s.live)
  }

  /** One event: `on_message`, `on_process_timeout`, `on_error` or `on_close`. */
  function Step(env: Env, s: State, e: Event, fetch: string -> HttpResponse): (r: Reaction)
    ensures Valid(s) ==> Valid(r.next)
    ensures r.next.done == (s.done || SetDone in r.actions)
    ensures r.next.armed == s.armed + (if IsKind(e, "process_starts") then 1 else 0)
  {
    match e
    case Message(Malformed(text)) => Reaction(s, [Log(NonJson(text))])
    case Message(Parsed(data)) =>
      if data.Obj? then OnObject(env, s, data.fields, fetch) else Reaction(s, [Raise(AttributeError)])
    case TimerFired(id) => OnTimeout(s, id)
    case SocketError => Reaction(s.(done := true), [SetDone])
    case SocketClosed => Reaction(s.(done := true), [SetDone])
  }

  /** What one event can do: raise only last, send at most once and only
      when asked, close only on a terminal frame or a live timer (and then
      also flag, unless it raised), and arm a timer only on
      `process_starts`. */
  lemma StepFacts(env: Env, s: State, e: Event, fetch: string -> HttpResponse)
    ensures var r := Step(env, s, e, fetch);
            RaisesLast(r.actions) && AtMostOneSend(r.actions) &&
            (HasSend(r.actions) <==> IsKind(e, "send_hash") || IsKind(e, "send_data")) &&
            (Close in r.actions ==> Ends(s, e)) &&
            (Ends(s, e) && !Crashed(r.actions) ==> Close in r.actions && SetDone in r.actions) &&
            (ArmsTimer(r.actions) <==> IsKind(e, "process_starts"))
  {
  }

  /** The events of one connection, one after the other. */
  function Run(env: Env, s: State, es: seq<Event>, fetch: string -> HttpResponse): (r: Reaction)
    ensures Valid(s) ==> Valid(r.next)
    ensures r.next.done == (s.done || SetDone in r.actions)
    ensures r.next.armed >= s.armed
    decreases |es|
  {
    if |es| == 0 then Reaction(s, [])
    else
      var first := Step(env, s, es[0], fetch);
      var rest := Run(env, first.next, es[1..], fetch);
      Reaction(rest.next, first.actions + rest.actions)
  }
}

=== FILE: facefusion_props.dfy ===
/**
 What the full queue-join client does, frame by frame and over a whole
 connection, stated against the handler of `FaceFusion`.
 */
module FaceFusionProperties {
  import opened Basics
  import opened Json
  import opened Protocol
  import Session
  import Base64
  import opened FaceFusion

  /** The kinds the handler has a branch for. */
  const Kinds: set<Value> := {Str("send_hash"), Str("estimation"), Str("send_data"), Str("process_starts"),
                              Str("process_completed"), Str("queue_full"), Str("error")}


  /** Unfolding `process_completed` into the cancellation, the result
      handling and its finish; a proof step for the lemmas below. */
  lemma UnfoldCompleted(env: Env, s: State, d: map<string, Value>, fetch: string -> HttpResponse)
    requires Get(d, "msg") == Str("process_completed")
    ensures var body := CompletedBody(env.appUrl, d, fetch);
            var r := Step(env, s, Msg(d), fetch);
            r.actions == Cancel(s) + Finish(body) && r.next.done == (s.done || !Crashed(body)) &&
            Crashed(r.actions) == Crashed(body)
  {
    var body := CompletedBody(env.appUrl, d, fetch);
    ResolverOnlyIsQuiet(body);
    FinishFacts(Cancel(s), body);
  }

  /** `process_completed` first cancels the remembered timer, if any; then
      come only reports, downloads and writes; it ends with the flag and the
      close exactly when nothing raised, and an exception ends it with
      neither. */
  lemma CompletionShape(env: Env, s: State, d: map<string, Value>, fetch: string -> HttpResponse)
    requires Get(d, "msg") == Str("process_completed")
    ensures var r := Step(env, s, Msg(d), fetch);
            HandledFrom(r.actions, if s.timer.Some? then 1 else 0) &&
            (s.timer.Some? ==> |r.actions| > 0 && r.actions[0] == CancelTimer(s.timer.value)) &&
            r.next.done == (s.done || !Crashed(r.actions))
  {
    UnfoldCompleted(env, s, d, fetch);
    CancelFinishShape(s, CompletedBody(env.appUrl, d, fetch));
  }

  /** The shape of the cancellation followed by a finished result handling. */
  lemma CancelFinishShape(s: State, body: seq<Action>)
    requires ResolverOnly(body) && RaisesLast(body)
    ensures var acts := Cancel(s) + Finish(body);
            HandledFrom(acts, |Cancel(s)|) &&
            (s.timer.Some? ==> |acts| > 0 && acts[0] == CancelTimer(s.timer.value))
  {
    FinishShape(Cancel(s), body);
  }

  /** A completion whose result handling did not raise: the handling's
      actions between the cancellation and the flag and close. */
  lemma FinishedStep(env: Env, s: State, d: map<string, Value>, fetch: string -> HttpResponse, body: seq<Action>)
    requires Get(d, "msg") == Str("process_completed")
    requires CompletedBody(env.appUrl, d, fetch) == body && !Crashed(body)
    ensures var r := Step(env, s, Msg(d), fetch);
            r.actions == Cancel(s) + body + [SetDone, Close] && r.next.done
  {
    UnfoldCompleted(env, s, d, fetch);
    assert Cancel(s) + Finish(body) == Cancel(s) + body + [SetDone, Close];
  }

  /** A completion whose result handling raised: the cancellation, then the
      handling's actions, and the flag keeps its value. */
  lemma CrashedStep(env: Env, s: State, d: map<string, Value>, fetch: string -> HttpResponse, body: seq<Action>)
    requires Get(d, "msg") == Str("process_completed")
    requires CompletedBody(env.appUrl, d, fetch) == body && Crashed(body)
    ensures var r := Step(env, s, Msg(d), fetch);
            r.actions == Cancel(s) + body && r.next.done == s.done
  {
    UnfoldCompleted(env, s, d, fetch);
  }

  // ---------------------------------------------------------------------
  // Session setup and outbound frames

  /** With a well-formed UUID the session hash is never empty: the server's
      cookie when it sent a non-empty one, else sixteen hexadecimal digits. */
  lemma SetupSessionHash(jar: Session.Jar, uuidText: string, file1: seq<byte>, file2: seq<byte>, appUrl: string)
    requires Session.IsUuidText(uuidText)
    ensures var h := Setup(jar, uuidText, file1, file2, appUrl).sessionHash;
            h != "" &&
            (Session.Lookup(jar, "session_hash") == Some(h) ||
             (|h| == 16 && Session.AllLowerHex(h) && Session.GetOrEmpty(jar, "session_hash") == ""))
  {
    Session.ClientSessionHashNonEmpty(jar, uuidText);
    Session.GeneratedHashOfUuid(uuidText);
  }

  /** The second payload is the bare prefix: the contents of the second file
      play no part in anything the client sends. */
  lemma SecondFileUnused(jar: Session.Jar, uuidText: string, file1: seq<byte>, file2: seq<byte>, other: seq<byte>, appUrl: string)
    ensures Setup(jar, uuidText, file1, file2, appUrl) == Setup(jar, uuidText, file1, other, appUrl)
    ensures Setup(jar, uuidText, file1, file2, appUrl).image2 == "data:image/jpeg;base64,"
  {
  }

  /** The first payload carries the first file: read back as an inline
      result it gives the file's bytes. */
  lemma FirstPayloadCarriesFile(jar: Session.Jar, uuidText: string, file1: seq<byte>, file2: seq<byte>, appUrl: string)
    ensures var url := Setup(jar, uuidText, file1, file2, appUrl).image1;
            IsDataUrl(Str(url)) && SaveDataUrl(url) == [WriteFile(PngOutput, file1), Log(Saved(PngOutput))]
  {
    SaveDataUrlOfPayload(file1);
  }

  /** `send_hash` is answered with the session values and `fn_index` 105. */
  lemma SendHashAnswered(env: Env, s: State, d: map<string, Value>, fetch: string -> HttpResponse)
    requires Get(d, "msg") == Str("send_hash")
    ensures Step(env, s, Msg(d), fetch) ==
            Reaction(s, [Send(Obj(map["session_hash" := Str(env.sessionHash), "fn_index" := Num(105),
                                      "session_id" := Str(env.sessionId), "msg" := Str("send_hash")]))])
  {
  }

  /** `send_data` is answered with the job request: both payloads and a null. */
  lemma SendDataAnswered(jar: Session.Jar, uuidText: string, file1: seq<byte>, file2: seq<byte>, appUrl: string,
                         s: State, d: map<string, Value>, fetch: string -> HttpResponse)
    requires Get(d, "msg") == Str("send_data")
    ensures var env := Setup(jar, uuidText, file1, file2, appUrl);
            Step(env, s, Msg(d), fetch) ==
            Reaction(s, [Send(Obj(map["fn_index" := Num(105),
                                      "data" := Arr([Str(JpegPrefix + Base64.Encode(file1)), Str(JpegPrefix), Null]),
                                      "event_data" := Null,
                                      "session_hash" := Str(Session.ClientSessionHash(jar, uuidText)),
                                      "session_id" := Str(Session.GetOrEmpty(jar, "session_id")),
                                      "msg" := Str("data")]))])
  {
  }

  // ---------------------------------------------------------------------
  // Frames that change nothing

  lemma EstimationReported(env: Env, s: State, d: map<string, Value>, fetch: string -> HttpResponse)
    requires Get(d, "msg") == Str("estimation")
    ensures Step(env, s, Msg(d), fetch) ==
            Reaction(s, [Log(Estimation(if "rank_eta" in d then d["rank_eta"] else Str("unknown"),
                                        if "queue_size" in d then d["queue_size"] else Str("unknown")))])
  {
  }

  /** A frame of an unknown kind, or one without `msg`, is reported and
      otherwise ignored. */
  lemma UnknownKindIgnored(env: Env, s: State, d: map<string, Value>, fetch: string -> HttpResponse)
    requires Get(d, "msg") !in Kinds
    ensures Step(env, s, Msg(d), fetch) == Reaction(s, [Log(UnexpectedKind(Get(d, "msg")))])
  {
  }

  lemma NonJsonIgnored(env: Env, s: State, text: string, fetch: string -> HttpResponse)
    ensures Step(env, s, Message(Malformed(text)), fetch) == Reaction(s, [Log(NonJson(text))])
  {
  }

  /** JSON that is not an object fails at `data.get('msg')`. */
  lemma NonObjectRaises(env: Env, s: State, v: Value, fetch: string -> HttpResponse)
    requires !v.Obj?
    ensures Step(env, s, Message(Parsed(v)), fetch) == Reaction(s, [Raise(AttributeError)])
  {
  }

  // ---------------------------------------------------------------------
  // The processing timer

  /** `process_starts` arms a fresh 60-second timer and remembers it; when
      it fires the client reports the timeout, closes and sets the flag. */
  lemma ProcessStartsArms(env: Env, s: State, d: map<string, Value>, fetch: string -> HttpResponse)
    requires Valid(s) && Get(d, "msg") == Str("process_starts")
    ensures var r := Step(env, s, Msg(d), fetch);
            r.actions == [ArmTimer(s.armed, ProcessTimeout)] && r.next.timer == Some(s.armed) &&
            r.next.live == s.live + {s.armed} && r.next.done == s.done &&
            Step(env, r.next, TimerFired(s.armed), fetch) ==
              Reaction(r.next.(done := true, live := s.live), [Log(TimedOut(60)), Close, SetDone])
  {
    var r := Step(env, s, Msg(d), fetch);
    assert s.armed !in s.live;
    assert r.next.live - {s.armed} == s.live;
  }

  /** A timer that was cancelled, or has fired, does nothing. */
  lemma StaleTimerIgnored(env: Env, s: State, id: nat, fetch: string -> HttpResponse)
    requires id !in s.live
    ensures Step(env, s, TimerFired(id), fetch) == Reaction(s, [])
  {
  }

  /** `process_completed` cancels the remembered timer, which then never
      fires. */
  lemma CompletionCancelsTimer(env: Env, s: State, d: map<string, Value>, fetch: string -> HttpResponse)
    requires Get(d, "msg") == Str("process_completed") && s.timer.Some?
    ensures var r := Step(env, s, Msg(d), fetch);
            r.actions[0] == CancelTimer(s.timer.value) && r.next.live == s.live - {s.timer.value} &&
            Step(env, r.next, TimerFired(s.timer.value), fetch).actions == []
  {
  }

  /** `queue_full` is reported, then the client flags and closes; timers
      are left as they are. */
  lemma QueueFullEnds(env: Env, s: State, d: map<string, Value>, fetch: string -> HttpResponse)
    requires Get(d, "msg") == Str("queue_full")
    ensures Step(env, s, Msg(d), fetch) == Reaction(s.(done := true), [Log(QueueFull), SetDone, Close])
  {
  }

  /** `queue_full` and `error` close without cancelling: a running timer
      still fires afterwards and closes and flags a second time. */
  lemma QueueFullLeavesTimer(env: Env, s: State, d: map<string, Value>, fetch: string -> HttpResponse)
    requires Get(d, "msg") == Str("queue_full") && s.timer.Some? && s.timer.value in s.live
    ensures var r := Step(env, s, Msg(d), fetch);
            r == Reaction(s.(done := true), [Log(QueueFull), SetDone, Close]) &&
            Step(env, r.next, TimerFired(s.timer.value), fetch).actions == [Log(TimedOut(60)), Close, SetDone]
  {
  }

  /** An `error` frame reports the server's text, `Unknown error` when the
      frame has none, then flags and closes. */
  lemma ServerErrorEnds(env: Env, s: State, d: map<string, Value>, fetch: string -> HttpResponse)
    requires Get(d, "msg") == Str("error")
    ensures Step(env, s, Msg(d), fetch) ==
            Reaction(s.(done := true),
                     [Log(ServerError(if "error" in d then d["error"] else Str("Unknown error"))), SetDone, Close])
  {
  }

  // ---------------------------------------------------------------------
  // Results

  /** An inline result is decoded from the text after its first comma and
      written to `fused_image.png`. */
  lemma InlineResultSaved(env: Env, s: State, d: map<string, Value>, url: string, bytes: seq<byte>,
                          fetch: string -> HttpResponse)
    requires Get(d, "msg") == Str("process_completed") && Truthy(GetOr(d, "success", Bool(false)))
    requires HeadOf(Get(d, "output")) == First(Str(url)) && StartsWith(url, "data:image")
    requires AfterComma(url).Some? && B64Decode(AfterComma(url).value) == Ok(bytes)
    ensures var r := Step(env, s, Msg(d), fetch);
            r.actions == Cancel(s) + [WriteFile(PngOutput, bytes), Log(Saved(PngOutput)), SetDone, Close] && r.next.done
  {
    InlineBody(env.appUrl, d, url, bytes, fetch);
    FinishedStep(env, s, d, fetch, [WriteFile(PngOutput, bytes), Log(Saved(PngOutput))]);
  }

  lemma InlineBody(appUrl: string, d: map<string, Value>, url: string, bytes: seq<byte>, fetch: string -> HttpResponse)
    requires Truthy(GetOr(d, "success", Bool(false)))
    requires HeadOf(Get(d, "output")) == First(Str(url)) && StartsWith(url, "data:image")
    requires AfterComma(url).Some? && B64Decode(AfterComma(url).value) == Ok(bytes)
    ensures CompletedBody(appUrl, d, fetch) == [WriteFile(PngOutput, bytes), Log(Saved(PngOutput))]
  {
    assert CompletedBody(appUrl, d, fetch) == SaveDataUrl(url);
  }

  /** An inline result built like the client's own payloads is saved byte
      for byte. */
  lemma InlineRoundTrip(env: Env, s: State, d: map<string, Value>, data: seq<byte>, fetch: string -> HttpResponse)
    requires Get(d, "msg") == Str("process_completed") && Truthy(GetOr(d, "success", Bool(false)))
    requires HeadOf(Get(d, "output")) == First(Str(EncodePayload(data)))
    ensures Step(env, s, Msg(d), fetch).actions ==
            Cancel(s) + [WriteFile(PngOutput, data), Log(Saved(PngOutput)), SetDone, Close]
  {
    SaveDataUrlOfPayload(data);
    AfterCommaOfPayload(data);
    Base64.DecodeEncode(data);
    InlineResultSaved(env, s, d, EncodePayload(data), data, fetch);
  }

  /** A concrete inline result: a successful completion whose output's
      `data` is the one-element list holding the data URL of three zero
      bytes saves those bytes, then the client flags and closes. */
  lemma InlinePngScenario(env: Env, d: map<string, Value>, fetch: string -> HttpResponse)
    requires Get(d, "msg") == Str("process_completed") && GetOr(d, "success", Bool(false)) == Bool(true)
    requires Get(d, "output") == Obj(map["data" := Arr([Str(ZeroPng)])])
    ensures Step(env, Initial, Msg(d), fetch).actions ==
            [WriteFile(PngOutput, [0, 0, 0]), Log(Saved(PngOutput)), SetDone, Close]
  {
    var output := map["data" := Arr([Str(ZeroPng)])];
    assert Get(output, "data") == Arr([Str(ZeroPng)]);
    assert HeadOf(Obj(output)) == First(Str(ZeroPng));
    ZeroPngDecodes();
    InlineResultSaved(env, Initial, d, ZeroPng, [0, 0, 0], fetch);
    assert Cancel(Initial) == [];
  }

  /** The inline result `data:image/png;base64,AAAA`, built from its
      comma-free header parts. */
  const PngPrefix: string := "data:image"
  const PngHead: string := PngPrefix + "/png;base64"
  const ZeroPng: string := PngHead + "," + "AAAA"

  lemma ZeroPngDecodes()
    ensures StartsWith(ZeroPng, "data:image")
    ensures AfterComma(ZeroPng) == Some("AAAA") && B64Decode("AAAA") == Ok([0, 0, 0])
  {
    ZeroPngPayload();
    Base64.EncodeZeros([0, 0, 0]);
    Base64.DecodeEncode([0, 0, 0]);
  }

  lemma ZeroPngPayload()
    ensures StartsWith(ZeroPng, "data:image") && AfterComma(ZeroPng) == Some("AAAA")
  {
    var rest := "/png;base64";
    assert Lacks(PngPrefix, ',') && Lacks(rest, ',');
    LacksAppend(PngPrefix, rest, ',');
    AfterCommaAfter(PngHead, "AAAA");
    assert ZeroPng == PngPrefix + (rest + "," + "AAAA");
    assert ZeroPng[..|PngPrefix|] == PngPrefix;
  }

  /** What follows the download request: the failure to send it, or the
      status check on the answer. */
  function AfterDownload(response: HttpResponse): seq<Action> {
    match response
    case Unreachable => [Raise(RequestError)]
    case Response(status, body) =>
      if status == 200 then [WriteFile(PngOutput, body), Log(Saved(PngOutput)), SetDone, Close]
      else [Log(DownloadFailed(status)), SetDone, Close]
  }

  /** The result handling of a named reference, with the flag and close
      that follow it. */
  lemma ReferenceBody(appUrl: string, d: map<string, Value>, ref: map<string, Value>, name: string,
                      fetch: string -> HttpResponse)
    requires Truthy(GetOr(d, "success", Bool(false)))
    requires HeadOf(Get(d, "output")) == First(Obj(ref)) && FileNameOf(ref) == Found(Str(name)) && name != ""
    ensures Finish(CompletedBody(appUrl, d, fetch)) ==
            [HttpGet(DownloadUrl(appUrl, name))] + AfterDownload(fetch(DownloadUrl(appUrl, name)))
  {
    var url := DownloadUrl(appUrl, name);
    assert CompletedBody(appUrl, d, fetch) == ResolveReference(appUrl, ref, fetch);
    assert ResolveReference(appUrl, ref, fetch) == Download(url, fetch);
    DownloadFinished(url, fetch);
  }

  /** A download followed by the finish of `process_completed`. */
  lemma DownloadFinished(url: string, fetch: string -> HttpResponse)
    ensures Finish(Download(url, fetch)) == [HttpGet(url)] + AfterDownload(fetch(url))
  {
    var body := Download(url, fetch);
    match fetch(url)
    case Unreachable =>
      assert body == [HttpGet(url), Raise(RequestError)];
    case Response(status, content) =>
      if status == 200 {
        assert body == [HttpGet(url), WriteFile(PngOutput, content), Log(Saved(PngOutput))];
        assert Finish(body) == body + [SetDone, Close];
      } else {
        assert body == [HttpGet(url), Log(DownloadFailed(status))];
        assert Finish(body) == body + [SetDone, Close];
      }
  }

  /** A structured reference with a file name is downloaded from
      `<app>/file=<quoted name>`; the body is saved only on status 200. */
  lemma ReferenceDownloaded(env: Env, s: State, d: map<string, Value>, ref: map<string, Value>, name: string,
                            fetch: string -> HttpResponse)
    requires Get(d, "msg") == Str("process_completed") && Truthy(GetOr(d, "success", Bool(false)))
    requires HeadOf(Get(d, "output")) == First(Obj(ref)) && FileNameOf(ref) == Found(Str(name)) && name != ""
    ensures var url := DownloadUrl(env.appUrl, name);
            Step(env, s, Msg(d), fetch).actions == Cancel(s) + ([HttpGet(url)] + AfterDownload(fetch(url)))
  {
    ReferenceBody(env.appUrl, d, ref, name, fetch);
    UnfoldCompleted(env, s, d, fetch);
  }

  /** The client downloads exactly when the first result element is a
      reference whose name is a non-empty text. */
  lemma DownloadsOnlyNamedReferences(appUrl: string, d: map<string, Value>, fetch: string -> HttpResponse)
    ensures Fetches(CompletedBody(appUrl, d, fetch)) <==>
            Truthy(GetOr(d, "success", Bool(false))) && HeadOf(Get(d, "output")).First? &&
            HeadOf(Get(d, "output")).item.Obj? &&
            (var n := FileNameOf(HeadOf(Get(d, "output")).item.fields);
             n.Found? && Truthy(n.name) && n.name.Str?)
  {
    var output := Get(d, "output");
    if Truthy(GetOr(d, "success", Bool(false))) {
      match HeadOf(output)
      case First(item) =>
        if IsDataUrl(item) {
          assert !Fetches(SaveDataUrl(item.s));
        } else if item.Obj? {
          var n := FileNameOf(item.fields);
          if n.Found? {
            assert ResolveReference(appUrl, item.fields, fetch) == FetchNamed(appUrl, n.name, fetch);
          }
        }
      case _ =>
    } else {
      assert |FailureReport(output)| == 1;
    }
  }

  /** A result is written only from an inline data URL or from a download
      answered with status 200, and then only to `fused_image.png`. */
  lemma WritesOnlyResults(appUrl: string, d: map<string, Value>, fetch: string -> HttpResponse)
    ensures var acts := CompletedBody(appUrl, d, fetch);
            Writes(acts) ==>
              Truthy(GetOr(d, "success", Bool(false))) && HeadOf(Get(d, "output")).First? &&
              (IsDataUrl(HeadOf(Get(d, "output")).item) ||
               (HeadOf(Get(d, "output")).item.Obj? &&
                exists i :: 0 <= i < |acts| && acts[i].HttpGet? && fetch(acts[i].url).Response? &&
                            fetch(acts[i].url).status == 200))
    ensures var acts := CompletedBody(appUrl, d, fetch);
            forall i :: 0 <= i < |acts| && acts[i].WriteFile? ==> acts[i].path == PngOutput
  {
    var output := Get(d, "output");
    var acts := CompletedBody(appUrl, d, fetch);
    if Truthy(GetOr(d, "success", Bool(false))) {
      match HeadOf(output)
      case First(item) =>
        if !IsDataUrl(item) && item.Obj? && Writes(acts) {
          var n := FileNameOf(item.fields);
          assert n.Found?;
          assert acts == FetchNamed(appUrl, n.name, fetch);
          assert acts[0].HttpGet?;
        }
      case _ =>
    } else {
      assert |FailureReport(output)| == 1;
    }
  }

  /** A failed job with an error text reports it, then flags and closes. */
  lemma FailureReported(env: Env, s: State, d: map<string, Value>, o: map<string, Value>, fetch: string -> HttpResponse)
    requires Get(d, "msg") == Str("process_completed") && !Truthy(GetOr(d, "success", Bool(false)))
    requires Get(d, "output") == Obj(o) && "error" in o && Truthy(o["error"])
    ensures Step(env, s, Msg(d), fetch).actions == Cancel(s) + [Log(ServerFailure(Some(o["error"]))), SetDone, Close]
  {
    FailureBody(env.appUrl, d, o, fetch);
    FinishedStep(env, s, d, fetch, [Log(ServerFailure(Some(o["error"])))]);
  }

  lemma FailureBody(appUrl: string, d: map<string, Value>, o: map<string, Value>, fetch: string -> HttpResponse)
    requires !Truthy(GetOr(d, "success", Bool(false)))
    requires Get(d, "output") == Obj(o) && "error" in o && Truthy(o["error"])
    ensures CompletedBody(appUrl, d, fetch) == [Log(ServerFailure(Some(o["error"])))]
  {
    assert CompletedBody(appUrl, d, fetch) == FailureReport(Obj(o));
  }

  // ---------------------------------------------------------------------
  // Crashes the handler does not catch

  /** A successful completion without `output` fails at `output.get`: the
      timer is already cancelled, but the flag is not set and the channel
      stays open. */
  lemma CrashOnMissingOutput(env: Env, s: State, d: map<string, Value>, fetch: string -> HttpResponse)
    requires Get(d, "msg") == Str("process_completed") && Truthy(GetOr(d, "success", Bool(false)))
    requires Get(d, "output") == Null
    ensures var r := Step(env, s, Msg(d), fetch);
            r.actions == Cancel(s) + [Raise(AttributeError)] && r.next.done == s.done
  {
    assert CompletedBody(env.appUrl, d, fetch) == [Raise(AttributeError)];
    CrashedStep(env, s, d, fetch, [Raise(AttributeError)]);
  }

  /** A data URL without a comma fails at unpacking the split. */
  lemma CrashOnCommalessDataUrl(env: Env, s: State, d: map<string, Value>, url: string, fetch: string -> HttpResponse)
    requires Get(d, "msg") == Str("process_completed") && Truthy(GetOr(d, "success", Bool(false)))
    requires HeadOf(Get(d, "output")) == First(Str(url)) && StartsWith(url, "data:image") && Lacks(url, ',')
    ensures var r := Step(env, s, Msg(d), fetch);
            r.actions == Cancel(s) + [Raise(ValueError)] && r.next.done == s.done
  {
    assert CompletedBody(env.appUrl, d, fetch) == SaveDataUrl(url);
    CrashedStep(env, s, d, fetch, [Raise(ValueError)]);
  }

  // ---------------------------------------------------------------------
  // Whole connections

  /** The number of frames sent. */
  function SendCount(acts: seq<Action>): nat
    decreases |acts|
  {
    if |acts| == 0 then 0 else (if acts[0].Send? then 1 else 0) + SendCount(acts[1..])
  }

  /** The number of `send_hash` and `send_data` frames. */
  function RequestCount(es: seq<Event>): nat
    decreases |es|
  {
    if |es| == 0 then 0
    else (if IsKind(es[0], "send_hash") || IsKind(es[0], "send_data") then 1 else 0) + RequestCount(es[1..])
  }

  lemma {:induction false} SendCountAppend(a: seq<Action>, b: seq<Action>)
    ensures SendCount(a + b) == SendCount(a) + SendCount(b)
    decreases |a|
  {
    if |a| == 0 {
      assert a + b == b;
    } else {
      assert (a + b)[0] == a[0];
      assert (a + b)[1..] == a[1..] + b;
      SendCountAppend(a[1..], b);
    }
  }

  /** One event's actions hold one frame to send exactly when it asked for one. */
  lemma {:induction false} StepSendCount(acts: seq<Action>)
    requires AtMostOneSend(acts)
    ensures SendCount(acts) == (if HasSend(acts) then 1 else 0)
    decreases |acts|
  {
    if |acts| > 0 {
      var rest := acts[1..];
      assert AtMostOneSend(rest) by {
        forall i, j | 0 <= i < j < |rest| && rest[i].Send?
          ensures !rest[j].Send?
        {
          assert acts[i + 1] == rest[i] && acts[j + 1] == rest[j];
        }
      }
      StepSendCount(rest);
      if acts[0].Send? {
        assert !HasSend(rest) by {
          forall j | 0 <= j < |rest|
            ensures !rest[j].Send?
          {
            assert acts[j + 1] == rest[j];
          }
        }
      } else {
        assert HasSend(acts) ==> HasSend(rest) by {
          if HasSend(acts) {
            var i :| 0 <= i < |acts| && acts[i].Send?;
            assert rest[i - 1] == acts[i];
          }
        }
        assert HasSend(rest) ==> HasSend(acts) by {
          if HasSend(rest) {
            var i :| 0 <= i < |rest| && rest[i].Send?;
            assert acts[i + 1] == rest[i];
          }
        }
      }
    }
  }

  /** Over a whole connection the client sends one frame per `send_hash`
      or `send_data` it receives, and nothing else: a repeated
      `send_data` submits the job again. */
  lemma {:induction false} RunSendsPerRequest(env: Env, s: State, es: seq<Event>, fetch: string -> HttpResponse)
    ensures SendCount(Run(env, s, es, fetch).actions) == RequestCount(es)
    decreases |es|
  {
    if |es| > 0 {
      var first := Step(env, s, es[0], fetch);
      StepSendCount(first.actions);
      RunSendsPerRequest(env, first.next, es[1..], fetch);
      SendCountAppend(first.actions, Run(env, first.next, es[1..], fetch).actions);
    }
  }

  /** The completion flag changes nothing: frames after completion are
      handled exactly as before it. */
  lemma NoTerminalGuard(env: Env, s: State, e: Event, fetch: string -> HttpResponse)
    ensures Step(env, s.(done := true), e, fetch).actions == Step(env, s.(done := false), e, fetch).actions
  {
  }

  // ---------------------------------------------------------------------
  // Scenarios

  /** Two `process_starts` and a completion: only the second timer is
      cancelled, and the first one, still live, fires afterwards and closes
      and flags a second time. */
  lemma TimerOverwritten(env: Env, s: State, starts: map<string, Value>, done: map<string, Value>,
                         fetch: string -> HttpResponse)
    requires Valid(s) && Get(starts, "msg") == Str("process_starts") && Get(done, "msg") == Str("process_completed")
    ensures var r1 := Step(env, s, Msg(starts), fetch);
            var r2 := Step(env, r1.next, Msg(starts), fetch);
            var r3 := Step(env, r2.next, Msg(done), fetch);
            r3.actions[0] == CancelTimer(s.armed + 1) && s.armed in r3.next.live &&
            Step(env, r3.next, TimerFired(s.armed), fetch).actions == [Log(TimedOut(60)), Close, SetDone]
  {
    ProcessStartsArms(env, s, starts, fetch);
    var r1 := Step(env, s, Msg(starts), fetch);
    ProcessStartsArms(env, r1.next, starts, fetch);
    var r2 := Step(env, r1.next, Msg(starts), fetch);
    CompletionCancelsTimer(env, r2.next, done, fetch);
  }

  /** The job fails with `overloaded`: the text is reported, the flag set
      and the channel closed. */
  lemma OverloadedScenario(env: Env, fetch: string -> HttpResponse)
    ensures Step(env, Initial, Msg(map["msg" := Str("error"), "error" := Str("overloaded")]), fetch).actions ==
            [Log(ServerError(Str("overloaded"))), SetDone, Close]
  {
  }

  /** A `ping` frame is reported and ignored. */
  lemma PingScenario(env: Env, fetch: string -> HttpResponse)
    ensures Step(env, Initial, Msg(map["msg" := Str("ping")]), fetch) == Reaction(Initial, [Log(UnexpectedKind(Str("ping")))])
  {
  }
}

=== FILE: json.dfy ===
/**
 Parsed JSON values as the Python client sees them after `json.loads`:
 objects are dictionaries (a duplicate key has already been resolved by
 the parser), arrays are lists, and JSON `null` is Python's `None`.
 */
module Json {

  datatype Value =
    | Null
    | Bool(b: bool)
    | Num(n: int)
    | Str(s: string)
    | Arr(items: seq<Value>)
    | Obj(fields: map<string, Value>)

  /** Python truthiness of a decoded JSON value (`if v:`). */
  predicate Truthy(v: Value) {
    match v
    case Null => false
    case Bool(b) => b
    case Num(n) => n != 0
    case Str(s) => |s| > 0
    case Arr(items) => |items| > 0
    case Obj(fields) => |fields| > 0
  }

  /** The falsy values are exactly the six empty or zero ones. */
  lemma FalsyValues(v: Value)
    ensures !Truthy(v) <==> v in {Null, Bool(false), Num(0), Str(""), Arr([]), Obj(map[])}
  {
  }

  /** `d.get(key)`: absent keys read as `None`, exactly like a stored `null`. */
  function Get(d: map<string, Value>, key: string): Value {
    if key in d then d[key] else Null
  }

  /** `d.get(key, default)`: the default is used only when the key is absent;
      a stored `null` is returned as `None`. */
  function GetOr(d: map<string, Value>, key: string, default: Value): Value {
    if key in d then d[key] else default
  }

  /** `get` cannot tell an absent key from a stored `null`; `get` with a
      default can, and returns the default only for the absent key. */
  lemma GetOrDefault(d: map<string, Value>, key: string, default: Value)
    ensures key !in d ==> Get(d, key) == Null && GetOr(d, key, default) == default
    ensures key in d ==> GetOr(d, key, default) == Get(d, key) == d[key]
  {
  }
}

=== FILE: protocol.dfy ===
/**
 The vocabulary the three clients' message handlers share: inbound frames,
 the events that reach a handler, the effects a handler has, and the
 pieces of result handling that the full and the reduced queue client
 perform with identical code.

 A handler's effects are a sequence of actions in the order the code
 performs them. A Python exception escaping the handler is the final
 `Raise` action: the effects before it did happen, the ones after it did
 not.
 */
module Protocol {
  import opened Basics
  import opened Json
  import Base64

  /** A text frame from the channel: JSON that `json.loads` accepted, or text it refused. */
  datatype Frame = Malformed(text: string) | Parsed(data: Value)

  /** What can make a client react: a frame, the expiry of a timer the
      client armed, or the transport reporting an error or its closing. */
  datatype Event = Message(frame: Frame) | TimerFired(id: nat) | SocketError | SocketClosed

  /** Exceptions the handlers can raise on unexpected input. */
  datatype PyError =
    | AttributeError  // `.get` on something that is not a dictionary
    | TypeError       // `len`, `in`, indexing or `quote` on a value of the wrong type
    | KeyError        // `output_data[0]` on a dictionary
    | ValueError      // unpacking a split without a comma, or a non-ASCII base64 text
    | BinasciiError   // base64 text the decoder rejects
    | RequestError    // the artifact download could not be sent

  /** The answer the service would give to a download request. */
  datatype HttpResponse = Response(status: int, body: seq<byte>) | Unreachable

  /** Reports to the console that identify a branch or carry data. */
  datatype Note =
    | Estimation(rankEta: Value, queueSize: Value)
    | UnexpectedKind(kind: Value)
    | NonJson(text: string)
    | QueueFull
    | ServerError(message: Value)
    | ServerFailure(reported: Option<Value>)
    | NoOutputData
    | UnexpectedOutputFormat
    | NoFileInfo
    | FileNameNotFound
    | DownloadFailed(status: int)
    | Saved(path: string)
    | TimedOut(seconds: nat)
    | Progress(percent: Value)
    | NoFusedImage
    | StatusError(detail: Value)
    | UnknownStatus(reportedStatus: Value)

  datatype Action =
    | Send(frame: Value)            // `ws.send(json.dumps(frame))`
    | Close                         // `ws.close()`
    | SetDone                       // `process_completed.set()`
    | ArmTimer(id: nat, seconds: nat)
    | CancelTimer(id: nat)
    | HttpGet(url: string)          // `session.get(url)` with the session's cookies
    | WriteFile(path: string, bytes: seq<byte>)
    | Log(note: Note)
    | Raise(error: PyError)

  // ---------------------------------------------------------------------
  // Facts about a handler's action sequence

  /** An exception, if any, is the last thing that happens. */
  predicate RaisesLast(acts: seq<Action>) {
    forall i :: 0 <= i < |acts| - 1 ==> !acts[i].Raise?
  }

  predicate Crashed(acts: seq<Action>) {
    |acts| > 0 && acts[|acts| - 1].Raise?
  }

  predicate HasSend(acts: seq<Action>) {
    exists i :: 0 <= i < |acts| && acts[i].Send?
  }

  predicate AtMostOneSend(acts: seq<Action>) {
    forall i, j :: 0 <= i < j < |acts| && acts[i].Send? ==> !acts[j].Send?
  }

  predicate Writes(acts: seq<Action>) {
    exists i :: 0 <= i < |acts| && acts[i].WriteFile?
  }

  predicate Fetches(acts: seq<Action>) {
    exists i :: 0 <= i < |acts| && acts[i].HttpGet?
  }

  /** Only what result handling may do: report, download, write, raise. */
  predicate ResolverOnly(acts: seq<Action>) {
    forall i :: 0 <= i < |acts| ==> acts[i].Log? || acts[i].HttpGet? || acts[i].WriteFile? || acts[i].Raise?
  }

  predicate NoRaise(acts: seq<Action>) {
    forall i :: 0 <= i < |acts| ==> !acts[i].Raise?
  }

  lemma RaisesLastAppend(a: seq<Action>, b: seq<Action>)
    requires NoRaise(a) && RaisesLast(b)
    ensures RaisesLast(a + b)
    ensures Crashed(a + b) <==> Crashed(b)
  {
    if |b| > 0 {
      assert (a + b)[|a + b| - 1] == b[|b| - 1];
    }
  }

  lemma NoRaiseOfUncrashed(a: seq<Action>)
    requires RaisesLast(a) && !Crashed(a)
    ensures NoRaise(a)
  {
  }

  predicate ArmsTimer(acts: seq<Action>) {
    exists i :: 0 <= i < |acts| && acts[i].ArmTimer?
  }

  /** Nothing that talks to the channel, the completion flag or a new timer. */
  predicate Quiet(acts: seq<Action>) {
    forall i :: 0 <= i < |acts| ==> !acts[i].Send? && !acts[i].SetDone? && !acts[i].Close? && !acts[i].ArmTimer?
  }

  lemma QuietFacts(a: seq<Action>)
    requires Quiet(a)
    ensures !HasSend(a) && SetDone !in a && Close !in a && !ArmsTimer(a)
  {
  }

  lemma QuietAppend(a: seq<Action>, b: seq<Action>)
    requires Quiet(a) && Quiet(b)
    ensures Quiet(a + b)
  {
  }

  /** What `process_completed` does once the result is handled: set the
      completion flag and close, unless handling raised. */
  function Finish(body: seq<Action>): seq<Action> {
    if Crashed(body) then body else body + [SetDone, Close]
  }

  /** What a completion handler's actions look like when some actions that
      neither raise nor end anything come first, then the handled result,
      then the flag and the close unless handling raised. */
  lemma FinishFacts(pre: seq<Action>, body: seq<Action>)
    requires Quiet(pre) && NoRaise(pre) && Quiet(body) && RaisesLast(body)
    ensures var acts := pre + Finish(body);
            RaisesLast(acts) && !HasSend(acts) && !ArmsTimer(acts) && Crashed(acts) == Crashed(body) &&
            (!Crashed(body) ==> |acts| >= 2 && acts[|acts| - 2..] == [SetDone, Close]) &&
            (Crashed(body) ==> SetDone !in acts && Close !in acts)
  {
    QuietAppend(pre, body);
    QuietFacts(pre + body);
    if Crashed(body) {
      RaisesLastAppend(pre, body);
    } else {
      NoRaiseOfUncrashed(body);
      RaisesLastAppend(body, [SetDone, Close]);
      RaisesLastAppend(pre, body + [SetDone, Close]);
      assert pre + (body + [SetDone, Close]) == (pre + body) + [SetDone, Close];
    }
  }

  /** What handling a result may do short of raising: report, download, write. */
  predicate ResultStep(a: Action) {
    a.Log? || a.HttpGet? || a.WriteFile?
  }

  /** Actions that, from position `k` on, are a finished result handling:
      only reports, downloads and writes, then either the exception alone
      or the flag and the close, never both. */
  predicate HandledFrom(acts: seq<Action>, k: nat) {
    var tail := if Crashed(acts) then 1 else 2;
    |acts| >= k + tail &&
    (forall i :: k <= i < |acts| - tail ==> ResultStep(acts[i])) &&
    (Crashed(acts) <==> !NoRaise(acts)) &&
    (!Crashed(acts) ==> acts[|acts| - 2..] == [SetDone, Close]) &&
    (Crashed(acts) ==> SetDone !in acts && Close !in acts)
  }

  /** The shape of `pre` then a finished result handling: `pre` is kept,
      and what follows it is a finished result handling. */
  lemma FinishShape(pre: seq<Action>, body: seq<Action>)
    requires Quiet(pre) && NoRaise(pre) && ResolverOnly(body) && RaisesLast(body)
    ensures var acts := pre + Finish(body);
            |acts| >= |pre| && acts[..|pre|] == pre && HandledFrom(acts, |pre|)
  {
    ResolverOnlyIsQuiet(body);
    FinishFacts(pre, body);
    var acts := pre + Finish(body);
    if Crashed(body) {
      assert acts == pre + body;
      forall i | |pre| <= i < |acts| - 1
        ensures ResultStep(acts[i])
      {
        assert acts[i] == body[i - |pre|];
      }
    } else {
      NoRaiseOfUncrashed(body);
      assert acts == pre + body + [SetDone, Close];
      forall i | |pre| <= i < |acts| - 2
        ensures ResultStep(acts[i])
      {
        assert acts[i] == body[i - |pre|];
      }
      forall i | 0 <= i < |acts|
        ensures !acts[i].Raise?
      {
        if i < |pre| { assert acts[i] == pre[i]; }
        else if i < |pre| + |body| { assert acts[i] == body[i - |pre|]; }
      }
    }
  }

  /** Result handling neither sends, nor closes, nor sets the flag, nor arms a timer. */
  lemma ResolverOnlyIsQuiet(a: seq<Action>)
    requires ResolverOnly(a)
    ensures Quiet(a)
  {
  }

  // ---------------------------------------------------------------------
  // Frames

  /** A frame that parsed to the JSON object `d`. */
  function Msg(d: map<string, Value>): Event {
    Message(Parsed(Obj(d)))
  }

  /** `data.get('msg')`, or the exception `.get` raises on a non-object. */
  function FieldOf(f: Frame, key: string): Option<Value> {
    if f.Parsed? && f.data.Obj? then Some(Get(f.data.fields, key)) else None
  }

  /** The frame is an object whose `key` field is the text `k`. */
  predicate HasField(f: Frame, key: string, k: string) {
    FieldOf(f, key) == Some(Str(k))
  }

  predicate IsKind(e: Event, k: string) {
    e.Message? && HasField(e.frame, "msg", k)
  }

  // ---------------------------------------------------------------------
  // Payload encoding and inline results

  const JpegPrefix: string := "data:image/jpeg;base64,"
  const PngOutput: string := "fused_image.png"

  /** `"data:image/jpeg;base64," + base64.b64encode(data).decode('utf-8')`. */
  function EncodePayload(data: seq<byte>): (r: string)
    ensures StartsWith(r, JpegPrefix)
    ensures |r| == |JpegPrefix| + (|data| + 2) / 3 * 4
  {
    JpegPrefix + Base64.Encode(data)
  }

  /** `base64.b64decode(s)` for a text, with its exceptions. */
  function B64Decode(s: string): (r: Result<seq<byte>, PyError>)
    ensures r.Err? ==> r.error == ValueError || r.error == BinasciiError
    ensures r.Err? && r.error == ValueError <==> !Base64.IsAscii(s)
    ensures r.Ok? ==> |r.value| * 4 <= |s| * 3
  {
    match Base64.Decode(s)
    case Ok(b) => Ok(b)
    case Err(e) => if e == Base64.NotAscii then Err(ValueError) else Err(BinasciiError)
  }

  /** The result element is inline: `isinstance(v, str) and v.startswith("data:image")`. */
  predicate IsDataUrl(v: Value) {
    v.Str? && StartsWith(v.s, "data:image")
  }

  /** The text after the first comma of `s`, as `s.split(",", 1)` unpacked
      into two names gives it; `None` when that unpacking fails. */
  function AfterComma(s: string): (r: Option<string>)
    ensures r.None? <==> Lacks(s, ',')
    ensures r.Some? ==> exists i :: 0 <= i < |s| && s[i] == ',' && Lacks(s[..i], ',') && r.value == s[i + 1..]
  {
    match IndexOf(s, ',')
    case None => None
    case Some(i) =>
      assert Lacks(s[..i], ',') by {
        forall k | 0 <= k < i
          ensures s[..i][k] != ','
        {
        }
      }
      Some(s[i + 1..])
  }

  /** Saving an inline result: split at the first comma, decode the rest, write it. */
  function SaveDataUrl(url: string): (acts: seq<Action>)
    ensures Crashed(acts) ==> |acts| == 1
    ensures !Crashed(acts) ==> |acts| == 2 && acts[0].WriteFile? && acts[0].path == PngOutput && acts[1] == Log(Saved(PngOutput))
    ensures Lacks(url, ',') ==> acts == [Raise(ValueError)]
    ensures !Crashed(acts) ==> AfterComma(url).Some? && B64Decode(AfterComma(url).value) == Ok(acts[0].bytes)
  {
    match AfterComma(url)
    case None => [Raise(ValueError)]
    case Some(encoded) =>
      match B64Decode(encoded)
      case Err(e) => [Raise(e)]
      case Ok(bytes) => [WriteFile(PngOutput, bytes), Log(Saved(PngOutput))]
  }

  /** The text after the first comma of a head without commas, a comma and
      a rest is the rest. */
  lemma AfterCommaAfter(head: string, rest: string)
    requires Lacks(head, ',')
    ensures AfterComma(head + "," + rest) == Some(rest)
  {
    var s := head + "," + rest;
    assert s[|head|] == ',' && s[..|head|] == head;
    IndexOfAt(s, |head|, ',');
    assert s[|head| + 1..] == rest;
  }

  /** The payload text splits at the prefix's comma into the prefix's
      header and exactly its base64 body. */
  lemma AfterCommaOfPayload(data: seq<byte>)
    ensures AfterComma(EncodePayload(data)) == Some(Base64.Encode(data))
  {
    var head := "data:image/jpeg;base64";
    var url := EncodePayload(data);
    assert url == head + "," + Base64.Encode(data);
    assert url[|head|] == ',' && url[..|head|] == head;
    IndexOfAt(url, |head|, ',');
    assert url[|head| + 1..] == Base64.Encode(data);
  }

  /** An inline result carrying a payload built like the client's own is
      written back byte for byte (RFC 2397 section 3, RFC 4648 section 4). */
  lemma SaveDataUrlOfPayload(data: seq<byte>)
    ensures IsDataUrl(Str(EncodePayload(data)))
    ensures SaveDataUrl(EncodePayload(data)) == [WriteFile(PngOutput, data), Log(Saved(PngOutput))]
  {
    AfterCommaOfPayload(data);
    Base64.DecodeEncode(data);
    assert EncodePayload(data)[..10] == "data:image";
  }

  // ---------------------------------------------------------------------
  // The shared part of `process_completed`

  datatype Head = First(item: Value) | NoData | Broken(error: PyError)

  /** `output.get('data')`, the `if output_data and len(output_data) > 0`
      test, and `output_data[0]`. */
  function HeadOf(output: Value): (r: Head)
    ensures r.Broken? && r.error == AttributeError <==> !output.Obj?
    ensures r.NoData? <==> output.Obj? && !Truthy(Get(output.fields, "data"))
    ensures r.First? ==> output.Obj? && match Get(output.fields, "data")
                                        case Arr(items) => |items| > 0 && r.item == items[0]
                                        case Str(s) => |s| > 0 && r.item == Str(s[..1])
                                        case _ => false
    ensures output.Obj? ==>
              match Get(output.fields, "data")
              case Arr(items) => |items| > 0 ==> r == First(items[0])
              case Str(s) => |s| > 0 ==> r == First(Str(s[..1]))
              case Obj(fields) => |fields| > 0 ==> r == Broken(KeyError)
              case Num(n) => n != 0 ==> r == Broken(TypeError)
              case Bool(b) => b ==> r == Broken(TypeError)
              case Null => r == NoData
  {
    if !output.Obj? then Broken(AttributeError)
    else
      var data := Get(output.fields, "data");
      if !Truthy(data) then NoData
      else match data
        case Arr(items) => First(items[0])
        case Str(s) => First(Str(s[..1]))
        case Obj(_) => Broken(KeyError)
        case _ => Broken(TypeError)
  }

  /** Building an output whose `data` is a non-empty list and taking its
      head gives back the list's first element, whatever else the output holds. */
  lemma HeadOfList(fields: map<string, Value>, item: Value, rest: seq<Value>)
    ensures HeadOf(Obj(fields["data" := Arr([item] + rest)])) == First(item)
  {
  }

  /** The same for a text: the head is its first character, as a text. */
  lemma HeadOfText(fields: map<string, Value>, c: char, rest: string)
    ensures HeadOf(Obj(fields["data" := Str([c] + rest)])) == First(Str([c]))
  {
  }

  /** `t` occurs in `s` as a substring (Python's `t in s` for texts). */
  predicate Contains(s: string, t: string)
    decreases |s|
  {
    StartsWith(s, t) || (|s| > 0 && Contains(s[1..], t))
  }

  /** The failure branch: `output and 'error' in output and output['error']`
      decides whether the server's error text is reported. */
  function FailureReport(output: Value): (acts: seq<Action>)
    ensures |acts| == 1
    ensures acts[0].Log? ==> acts[0].note.ServerFailure?
    ensures acts[0].Log? && acts[0].note.reported.Some? <==>
              output.Obj? && "error" in output.fields && Truthy(output.fields["error"])
    ensures acts[0].Log? && acts[0].note.reported.Some? ==> acts[0].note.reported.value == output.fields["error"]
    ensures !acts[0].Log? ==> acts[0] == Raise(TypeError) && Truthy(output) && !output.Obj?
  {
    if !Truthy(output) then [Log(ServerFailure(None))]
    else match output
      case Obj(m) =>
        if "error" in m && Truthy(m["error"]) then [Log(ServerFailure(Some(m["error"])))]
        else [Log(ServerFailure(None))]
      case Str(s) => if Contains(s, "error") then [Raise(TypeError)] else [Log(ServerFailure(None))]
      case Arr(items) => if Str("error") in items then [Raise(TypeError)] else [Log(ServerFailure(None))]
      case _ => [Raise(TypeError)]
  }

  /** The failure branch raises exactly when `'error' in output` or
      `output['error']` fails: a truthy number or boolean, a text containing
      `error`, or a list holding the text `error`. */
  lemma FailureReportRaises(output: Value)
    ensures FailureReport(output) == [Raise(TypeError)] <==>
            Truthy(output) &&
            (output.Num? || output.Bool? ||
             (output.Str? && Contains(output.s, "error")) ||
             (output.Arr? && Str("error") in output.items))
  {
  }
}

=== FILE: reduced.dfy ===
/**
 The reduced queue-join client (`test.py`): frames carry neither
 `fn_index` nor `session_id`, no timer is armed, only inline results are
 saved, and `queue_full` and `error` are not recognised kinds at all.
 */
module Reduced {
  import opened Basics
  import opened Json
  import opened Protocol
  import Session

  /** What `main` has computed by the time the channel opens. */
  datatype Env = Env(sessionHash: string, image1: string, image2: string)

  /** `main` before the channel opens: the `session_hash` cookie, or the
      empty text when there is none (nothing is generated), and both files
      encoded in full. */
  function Setup(jar: Session.Jar, file1: seq<byte>, file2: seq<byte>): (env: Env)
    ensures forall i :: 0 <= i < |jar| && jar[i].0 == "session_hash" ==> env.sessionHash == jar[i].1
    ensures env.sessionHash != "" ==> exists i :: 0 <= i < |jar| && jar[i] == ("session_hash", env.sessionHash)
    ensures StartsWith(env.image1, JpegPrefix) && StartsWith(env.image2, JpegPrefix)
  {
    Env(Session.GetOrEmpty(jar, "session_hash"), EncodePayload(file1), EncodePayload(file2))
  }

  datatype State = State(done: bool)

  const Initial: State := State(false)

  datatype Reaction = Reaction(next: State, actions: seq<Action>)

  /** The answer to `send_hash`. */
  function HashReply(env: Env): Value {
    Obj(map["session_hash" := Str(env.sessionHash), "msg" := Str("send_hash")])
  }

  /** The answer to `send_data`. */
  function DataRequest(env: Env): Value {
    Obj(map["session_hash" := Str(env.sessionHash), "data" := Arr([Str(env.image1), Str(env.image2), Null]),
            "event_data" := Null, "msg" := Str("data")])
  }

  /** The hash answer holds only its kind and the session hash: no
      function index and no session id. */
  lemma HashReplyFields(env: Env)
    ensures var r := HashReply(env);
            r.Obj? && r.fields.Keys == {"session_hash", "msg"} &&
            Get(r.fields, "msg") == Str("send_hash") && Get(r.fields, "session_hash") == Str(env.sessionHash)
  {
  }

  /** The data answer carries the two payloads and an empty third input,
      no event data and the session hash, and again neither a function
      index nor a session id. */
  lemma DataRequestFields(env: Env)
    ensures var r := DataRequest(env);
            r.Obj? && r.fields.Keys == {"session_hash", "data", "event_data", "msg"} &&
            Get(r.fields, "msg") == Str("data") && Get(r.fields, "session_hash") == Str(env.sessionHash) &&
            Get(r.fields, "data") == Arr([Str(env.image1), Str(env.image2), Null]) &&
            Get(r.fields, "event_data") == Null
  {
  }

  /** What `process_completed` does with the result: only an inline data
      URL is saved. */
  function CompletedBody(d: map<string, Value>): (acts: seq<Action>)
    ensures ResolverOnly(acts) && RaisesLast(acts) && !Fetches(acts)
    ensures Writes(acts) ==> Truthy(GetOr(d, "success", Bool(false))) &&
                             HeadOf(Get(d, "output")).First? && IsDataUrl(HeadOf(Get(d, "output")).item)
  {
    var output := Get(d, "output");
    if Truthy(GetOr(d, "success", Bool(false))) then
      match HeadOf(output)
      case Broken(e) => [Raise(e)]
      case NoData => [Log(NoOutputData)]
      case First(item) =>
        if IsDataUrl(item) then SaveDataUrl(item.s) else [Log(UnexpectedOutputFormat)]
    else FailureReport(output)
  }

  /** `process_completed`: handle the result, then set the completion flag
      and close, unless handling raised. */
  function OnCompleted(s: State, d: map<string, Value>): (r: Reaction)
    ensures RaisesLast(r.actions) && !HasSend(r.actions) && !ArmsTimer(r.actions) && !Fetches(r.actions)
    ensures !Crashed(r.actions) ==> |r.actions| >= 2 && r.actions[|r.actions| - 2..] == [SetDone, Close]
    ensures Crashed(r.actions) ==> SetDone !in r.actions && Close !in r.actions
    ensures r.next.done == (s.done || !Crashed(r.actions))
  {
    var body := CompletedBody(d);
    ResolverOnlyIsQuiet(body);
    QuietFacts(body);
    if Crashed(body) then Reaction(s, Finish(body))
    else
      NoRaiseOfUncrashed(body);
      RaisesLastAppend(body, [SetDone, Close]);
      Reaction(State(true), Finish(body))
  }

  /** The branches of `on_message` for a JSON object. */
  function OnObject(env: Env, s: State, d: map<string, Value>): (r: Reaction)
    ensures RaisesLast(r.actions) && AtMostOneSend(r.actions) && !ArmsTimer(r.actions)
    ensures r.next.done == (s.done || SetDone in r.actions)
    ensures HasSend(r.actions) <==> Get(d, "msg") in {Str("send_hash"), Str("send_data")}
    ensures Close in r.actions || SetDone in r.actions ==> Get(d, "msg") == Str("process_completed")
    ensures Get(d, "msg") == Str("process_completed") && !Crashed(r.actions) ==> Close in r.actions && SetDone in r.actions
  {
    var kind := Get(d, "msg");
    if kind == Str("send_hash") then
      var r := Reaction(s, [Send(HashReply(env))]);
      assert r.actions[0].Send?;
      r
    else if kind == Str("estimation") then
      Reaction(s, [Log(Estimation(GetOr(d, "rank_eta", Str("unknown")), GetOr(d, "queue_size", Str("unknown"))))])
    else if kind == Str("send_data") then
      var r := Reaction(s, [Send(DataRequest(env))]);
      assert r.actions[0].Send?;
      r
    else if kind == Str("process_starts") then Reaction(s, [])
    else if kind == Str("process_completed") then OnCompleted(s, d)
    else Reaction(s, [Log(UnexpectedKind(kind))])
  }

  /** One event: `on_message`, `on_error` or `on_close`. The reduced
      client arms no timer, so an expiry finds nothing to run. */
  function Step(env: Env, s: State, e: Event): (r: Reaction)
    ensures RaisesLast(r.actions) && AtMostOneSend(r.actions) && !ArmsTimer(r.actions)
    ensures r.next.done == (s.done || SetDone in r.actions)
    ensures HasSend(r.actions) <==> IsKind(e, "send_hash") || IsKind(e, "send_data")
    ensures Close in r.actions ==> IsKind(e, "process_completed")
    ensures IsKind(e, "process_completed") && !Crashed(r.actions) ==> Close in r.actions && SetDone in r.actions
  {
    match e
    case Message(Malformed(text)) => Reaction(s, [Log(NonJson(text))])
    case Message(Parsed(data)) =>
      if data.Obj? then OnObject(env, s, data.fields) else Reaction(s, [Raise(AttributeError)])
    case TimerFired(_) => Reaction(s, [])
    case SocketError => Reaction(State(true), [SetDone])
    case SocketClosed => Reaction(State(true), [SetDone])
  }

  /** The events of one connection, one after the other. */
  function Run(env: Env, s: State, es: seq<Event>): (r: Reaction)
    ensures r.next.done == (s.done || SetDone in r.actions)
    ensures !ArmsTimer(r.actions)
    decreases |es|
  {
    if |es| == 0 then Reaction(s, [])
    else
      var first := Step(env, s, es[0]);
      var rest := Run(env, first.next, es[1..]);
      Reaction(rest.next, first.actions + rest.actions)
  }
}

=== FILE: reduced_props.dfy ===
/**
 What the reduced queue-join client does, stated against the handler of
 `Reduced`.
 */
module ReducedProperties {
  import opened Basics
  import opened Json
  import opened Protocol
  import Session
  import opened Reduced

  /** The kinds the reduced handler has a branch for. */
  const Kinds: set<Value> := {Str("send_hash"), Str("estimation"), Str("send_data"), Str("process_starts"),
                              Str("process_completed")}

  /** Without a `session_hash` cookie the reduced client goes on with an
      empty session hash. */
  lemma NoCookieEmptyHash(jar: Session.Jar, file1: seq<byte>, file2: seq<byte>)
    requires Session.Lookup(jar, "session_hash").None?
    ensures Setup(jar, file1, file2).sessionHash == ""
  {
  }

  /** `send_hash` is answered with the session hash alone. */
  lemma SendHashAnswered(env: Env, s: State, d: map<string, Value>)
    requires Get(d, "msg") == Str("send_hash")
    ensures Step(env, s, Msg(d)) == Reaction(s, [Send(Obj(map["session_hash" := Str(env.sessionHash),
                                                               "msg" := Str("send_hash")]))])
  {
  }

  /** `send_data` is answered with both payloads, each encoding its whole
      file, and neither `fn_index` nor `session_id`. */
  lemma SendDataAnswered(jar: Session.Jar, file1: seq<byte>, file2: seq<byte>, s: State, d: map<string, Value>)
    requires Get(d, "msg") == Str("send_data")
    ensures var env := Setup(jar, file1, file2);
            Step(env, s, Msg(d)) ==
            Reaction(s, [Send(Obj(map["session_hash" := Str(Session.GetOrEmpty(jar, "session_hash")),
                                      "data" := Arr([Str(EncodePayload(file1)), Str(EncodePayload(file2)), Null]),
                                      "event_data" := Null, "msg" := Str("data")]))])
  {
  }

  /** Both payloads carry their files: read back as inline results they
      give the files' bytes. */
  lemma PayloadsCarryFiles(jar: Session.Jar, file1: seq<byte>, file2: seq<byte>)
    ensures var env := Setup(jar, file1, file2);
            SaveDataUrl(env.image1) == [WriteFile(PngOutput, file1), Log(Saved(PngOutput))] &&
            SaveDataUrl(env.image2) == [WriteFile(PngOutput, file2), Log(Saved(PngOutput))]
  {
    SaveDataUrlOfPayload(file1);
    SaveDataUrlOfPayload(file2);
  }

  /** `process_starts` does nothing: no timer exists in this client. */
  lemma ProcessStartsIgnored(env: Env, s: State, d: map<string, Value>)
    requires Get(d, "msg") == Str("process_starts")
    ensures Step(env, s, Msg(d)) == Reaction(s, [])
  {
  }

  /** `queue_full`, `error` and every other kind without a branch are
      reported as unexpected and change nothing; the channel stays open. */
  lemma UnknownKindIgnored(env: Env, s: State, d: map<string, Value>)
    requires Get(d, "msg") !in Kinds
    ensures Step(env, s, Msg(d)) == Reaction(s, [Log(UnexpectedKind(Get(d, "msg")))])
  {
  }

  lemma EstimationReported(env: Env, s: State, d: map<string, Value>)
    requires Get(d, "msg") == Str("estimation")
    ensures Step(env, s, Msg(d)) ==
            Reaction(s, [Log(Estimation(if "rank_eta" in d then d["rank_eta"] else Str("unknown"),
                                        if "queue_size" in d then d["queue_size"] else Str("unknown")))])
  {
  }

  lemma NonJsonIgnored(env: Env, s: State, text: string)
    ensures Step(env, s, Message(Malformed(text))) == Reaction(s, [Log(NonJson(text))])
  {
  }

  /** Unfolding `process_completed` into the result handling and its
      finish; a proof step for the lemmas below. */
  lemma UnfoldCompleted(env: Env, s: State, d: map<string, Value>)
    requires Get(d, "msg") == Str("process_completed")
    ensures var body := CompletedBody(d);
            Step(env, s, Msg(d)).actions == Finish(body)
  {
  }

  /** `process_completed` reports and writes, never downloads; it ends with
      the flag and the close exactly when nothing raised, and an exception
      ends it with neither. */
  lemma CompletionShape(env: Env, s: State, d: map<string, Value>)
    requires Get(d, "msg") == Str("process_completed")
    ensures var r := Step(env, s, Msg(d));
            HandledFrom(r.actions, 0) && !Fetches(r.actions) &&
            r.next.done == (s.done || !Crashed(r.actions))
  {
    UnfoldCompleted(env, s, d);
    FinishShapeNoFetch(CompletedBody(d));
  }

  /** The shape of a finished result handling that downloads nothing. */
  lemma FinishShapeNoFetch(body: seq<Action>)
    requires ResolverOnly(body) && RaisesLast(body) && !Fetches(body)
    ensures var acts := Finish(body);
            HandledFrom(acts, 0) && !Fetches(acts)
  {
    FinishShape([], body);
    assert [] + Finish(body) == Finish(body);
    FinishNoFetch(body);
  }

  /** The flag and the close add no download. */
  lemma FinishNoFetch(body: seq<Action>)
    requires !Fetches(body)
    ensures !Fetches(Finish(body))
  {
    if !Crashed(body) {
      var acts := body + [SetDone, Close];
      forall i | 0 <= i < |acts|
        ensures !acts[i].HttpGet?
      {
        if i < |body| { assert acts[i] == body[i]; }
      }
    }
  }

  /** An inline result is decoded from the text after its first comma and
      written to `fused_image.png`. */
  lemma InlineResultSaved(env: Env, s: State, d: map<string, Value>, url: string, bytes: seq<byte>)
    requires Get(d, "msg") == Str("process_completed") && Truthy(GetOr(d, "success", Bool(false)))
    requires HeadOf(Get(d, "output")) == First(Str(url)) && StartsWith(url, "data:image")
    requires AfterComma(url).Some? && B64Decode(AfterComma(url).value) == Ok(bytes)
    ensures Step(env, s, Msg(d)) ==
            Reaction(State(true), [WriteFile(PngOutput, bytes), Log(Saved(PngOutput)), SetDone, Close])
  {
    UnfoldCompleted(env, s, d);
  }

  /** A structured reference is not followed: it is reported as an
      unexpected format, and the client flags and closes without
      downloading or writing anything. */
  lemma ReferenceNotFollowed(env: Env, s: State, d: map<string, Value>, ref: map<string, Value>)
    requires Get(d, "msg") == Str("process_completed") && Truthy(GetOr(d, "success", Bool(false)))
    requires HeadOf(Get(d, "output")) == First(Obj(ref))
    ensures Step(env, s, Msg(d)) == Reaction(State(true), [Log(UnexpectedOutputFormat), SetDone, Close])
  {
    UnfoldCompleted(env, s, d);
  }

  /** A failed job with an error text reports it, then flags and closes. */
  lemma FailureReported(env: Env, s: State, d: map<string, Value>, o: map<string, Value>)
    requires Get(d, "msg") == Str("process_completed") && !Truthy(GetOr(d, "success", Bool(false)))
    requires Get(d, "output") == Obj(o) && "error" in o && Truthy(o["error"])
    ensures Step(env, s, Msg(d)) == Reaction(State(true), [Log(ServerFailure(Some(o["error"]))), SetDone, Close])
  {
    UnfoldCompleted(env, s, d);
  }

  /** A successful completion without `output` fails at `output.get`,
      before the flag is set. */
  lemma CrashOnMissingOutput(env: Env, s: State, d: map<string, Value>)
    requires Get(d, "msg") == Str("process_completed") && Truthy(GetOr(d, "success", Bool(false)))
    requires Get(d, "output") == Null
    ensures Step(env, s, Msg(d)) == Reaction(s, [Raise(AttributeError)])
  {
    UnfoldCompleted(env, s, d);
  }

  /** A data URL without a comma fails at unpacking the split. */
  lemma CrashOnCommalessDataUrl(env: Env, s: State, d: map<string, Value>, url: string)
    requires Get(d, "msg") == Str("process_completed") && Truthy(GetOr(d, "success", Bool(false)))
    requires HeadOf(Get(d, "output")) == First(Str(url)) && StartsWith(url, "data:image") && Lacks(url, ',')
    ensures Step(env, s, Msg(d)) == Reaction(s, [Raise(ValueError)])
  {
    UnfoldCompleted(env, s, d);
  }

  /** The number of `process_completed` frames. */
  function CompletionCount(es: seq<Event>): nat
    decreases |es|
  {
    if |es| == 0 then 0 else (if IsKind(es[0], "process_completed") then 1 else 0) + CompletionCount(es[1..])
  }

  lemma CloseInAppend(a: seq<Action>, b: seq<Action>)
    requires Close !in a && Close !in b
    ensures Close !in a + b
  {
  }

  /** Over a whole connection the reduced client closes the channel only if
      a `process_completed` frame arrived: nothing else it receives ends
      the wait from its side. */
  lemma {:induction false} ClosesOnlyOnCompletion(env: Env, s: State, es: seq<Event>)
    requires CompletionCount(es) == 0
    ensures Close !in Run(env, s, es).actions
    decreases |es|
  {
    if |es| > 0 {
      var first := Step(env, s, es[0]);
      ClosesOnlyOnCompletion(env, first.next, es[1..]);
      CloseInAppend(first.actions, Run(env, first.next, es[1..]).actions);
    }
  }
}

=== FILE: session.dfy ===
/**
 What the client derives from the handshake's cookies before it opens the
 queue channel: the `session_id` and `session_hash` values, a generated
 session hash when the server sent none, and the `Cookie` header that
 carries the whole jar (the `name=value` pairs joined by `"; "`, as in the
 cookie-string of section 4.2.1 of RFC 6265).
 */
module Session {
  import opened Basics

  /** The cookie dictionary `session.cookies.get_dict()`: pairs in insertion
      order, each name at most once. */
  predicate UniqueNames(jar: seq<(string, string)>) {
    forall i, j :: 0 <= i < j < |jar| ==> jar[i].0 != jar[j].0
  }

  type Jar = jar: seq<(string, string)> | UniqueNames(jar) witness []

  /** The value stored under `name`, if any. */
  function Lookup(jar: seq<(string, string)>, name: string): (r: Option<string>)
    ensures r.Some? ==> exists i :: 0 <= i < |jar| && jar[i] == (name, r.value)
    ensures r.None? <==> forall i :: 0 <= i < |jar| ==> jar[i].0 != name
    decreases |jar|
  {
    if |jar| == 0 then None
    else if jar[0].0 == name then Some(jar[0].1)
    else Lookup(jar[1..], name)
  }

  /** `cookies.get(name, '')`. */
  function GetOrEmpty(jar: Jar, name: string): (r: string)
    ensures forall i :: 0 <= i < |jar| && jar[i].0 == name ==> r == jar[i].1
    ensures r != "" ==> exists i :: 0 <= i < |jar| && jar[i] == (name, r)
  {
    match Lookup(jar, name)
    case Some(v) => v
    case None => ""
  }

  // ---------------------------------------------------------------------
  // Cookie header

  function Pair(c: (string, string)): string {
    c.0 + "=" + c.1
  }

  /** `'; '.join([f'{key}={value}' for key, value in cookies.items()])`. */
  function CookieHeader(jar: seq<(string, string)>): (r: string)
    ensures r == "" <==> |jar| == 0
    ensures |jar| > 0 ==> StartsWith(r, Pair(jar[0]))
    decreases |jar|
  {
    if |jar| == 0 then ""
    else if |jar| == 1 then Pair(jar[0])
    else Pair(jar[0]) + "; " + CookieHeader(jar[1..])
  }

  /** Cookies the header grammar can carry unambiguously (section 4.1.1 of
      RFC 6265): names without `=` or `;`, values without `;`. */
  predicate Separable(jar: seq<(string, string)>) {
    forall i :: 0 <= i < |jar| ==> Lacks(jar[i].0, '=') && Lacks(jar[i].0, ';') && Lacks(jar[i].1, ';')
  }

  /** A `name=value` piece split at its first `=`. */
  function SplitPair(piece: string): (string, string) {
    match IndexOf(piece, '=')
    case None => (piece, "")
    case Some(i) => (piece[..i], piece[i + 1..])
  }

  /** Pieces of a header separated by `;` and one optional space. */
  function SplitPieces(h: string): (r: seq<string>)
    ensures |r| >= 1
    decreases |h|
  {
    match IndexOf(h, ';')
    case None => [h]
    case Some(i) =>
      var rest := h[i + 1..];
      [h[..i]] + SplitPieces(if |rest| > 0 && rest[0] == ' ' then rest[1..] else rest)
  }

  function SplitPairs(pieces: seq<string>): (r: seq<(string, string)>)
    ensures |r| == |pieces|
    decreases |pieces|
  {
    if |pieces| == 0 then [] else [SplitPair(pieces[0])] + SplitPairs(pieces[1..])
  }

  /** Reading a `Cookie` header back into its pairs (the server's view). */
  function ParseCookieHeader(h: string): seq<(string, string)> {
    if h == "" then [] else SplitPairs(SplitPieces(h))
  }

  lemma SplitPairOfPair(c: (string, string))
    requires Lacks(c.0, '=')
    ensures SplitPair(Pair(c)) == c
  {
    IndexOfAppend(c.0, "=" + c.1, '=');
    assert Pair(c) == c.0 + ("=" + c.1);
    assert Pair(c)[..|c.0|] == c.0;
    assert Pair(c)[|c.0| + 1..] == c.1;
  }

  lemma PairLacksSemicolon(c: (string, string))
    requires Lacks(c.0, ';') && Lacks(c.1, ';')
    ensures Lacks(Pair(c), ';')
  {
    var p := Pair(c);
    forall k | 0 <= k < |p|
      ensures p[k] != ';'
    {
      if k < |c.0| {
        assert p[k] == c.0[k];
      } else if k > |c.0| {
        assert p[k] == c.1[k - |c.0| - 1];
      }
    }
  }

  /** The `name=value` texts of a jar, in order. */
  function Pairs(jar: seq<(string, string)>): seq<string>
    decreases |jar|
  {
    if |jar| == 0 then [] else [Pair(jar[0])] + Pairs(jar[1..])
  }

  lemma SeparableTail(jar: seq<(string, string)>)
    requires |jar| > 0 && Separable(jar)
    ensures Separable(jar[1..])
  {
    forall i | 0 <= i < |jar[1..]|
      ensures Lacks(jar[1..][i].0, '=') && Lacks(jar[1..][i].0, ';') && Lacks(jar[1..][i].1, ';')
    {
      assert jar[1..][i] == jar[i + 1];
    }
  }

  /** Splitting `p; tail` at its first `;` when `p` has none. */
  lemma SplitPiecesCons(p: string, tail: string)
    requires Lacks(p, ';')
    ensures SplitPieces(p + "; " + tail) == [p] + SplitPieces(tail)
  {
    var h := p + "; " + tail;
    assert h[|p|] == ';' && h[..|p|] == p;
    IndexOfAt(h, |p|, ';');
    var rest := h[|p| + 1..];
    assert rest == " " + tail;
    assert rest[1..] == tail;
  }

  /** The pieces of a joined header are exactly the joined pairs. */
  lemma {:induction false} SplitPiecesOfHeader(jar: seq<(string, string)>)
    requires |jar| > 0 && Separable(jar)
    ensures SplitPieces(CookieHeader(jar)) == Pairs(jar)
    decreases |jar|
  {
    PairLacksSemicolon(jar[0]);
    var p := Pair(jar[0]);
    if |jar| == 1 {
      assert IndexOf(p, ';') == None;
      assert Pairs(jar) == [p] + Pairs(jar[1..]);
    } else {
      SplitPiecesCons(p, CookieHeader(jar[1..]));
      SeparableTail(jar);
      SplitPiecesOfHeader(jar[1..]);
    }
  }

  lemma {:induction false} SplitPairsOfPairs(jar: seq<(string, string)>)
    requires Separable(jar)
    ensures SplitPairs(Pairs(jar)) == jar
    decreases |jar|
  {
    if |jar| > 0 {
      SplitPairOfPair(jar[0]);
      SeparableTail(jar);
      SplitPairsOfPairs(jar[1..]);
      assert jar == [jar[0]] + jar[1..];
    }
  }

  /** The header the client sends carries every cookie of the jar, in
      order: a server reading it back gets the jar. */
  lemma CookieHeaderRoundTrip(jar: seq<(string, string)>)
    requires Separable(jar)
    ensures ParseCookieHeader(CookieHeader(jar)) == jar
  {
    if |jar| > 0 {
      SplitPiecesOfHeader(jar);
      SplitPairsOfPairs(jar);
    }
  }

  // ---------------------------------------------------------------------
  // Session hash

  /** `s.replace("-", "")`. */
  function StripDashes(s: string): (r: string)
    ensures |r| <= |s|
    ensures Lacks(r, '-')
    decreases |s|
  {
    if |s| == 0 then ""
    else (if s[0] == '-' then "" else [s[0]]) + StripDashes(s[1..])
  }

  lemma {:induction false} StripDashesAppend(a: string, b: string)
    ensures StripDashes(a + b) == StripDashes(a) + StripDashes(b)
    decreases |a|
  {
    if |a| == 0 {
      assert a + b == b;
    } else {
      assert (a + b)[0] == a[0];
      assert (a + b)[1..] == a[1..] + b;
      StripDashesAppend(a[1..], b);
    }
  }

  lemma {:induction false} StripDashesNoDash(s: string)
    requires Lacks(s, '-')
    ensures StripDashes(s) == s
    decreases |s|
  {
    if |s| > 0 {
      StripDashesNoDash(s[1..]);
      assert s == [s[0]] + s[1..];
    }
  }

  /** `str(uuid.uuid4()).replace("-", "")[:16]`, with the UUID's text
      supplied by the caller; like Python's `[:16]`, a shorter text is kept
      whole. */
  function GeneratedHash(uuidText: string): (r: string)
    ensures |r| <= 16
    ensures Lacks(r, '-')
    ensures StartsWith(StripDashes(uuidText), r)
    ensures |StripDashes(uuidText)| >= 16 ==> |r| == 16
    ensures |StripDashes(uuidText)| < 16 ==> r == StripDashes(uuidText)
  {
    var t := StripDashes(uuidText);
    if |t| <= 16 then t else t[..16]
  }

  predicate IsLowerHex(c: char) {
    ('0' <= c <= '9') || ('a' <= c <= 'f')
  }

  predicate AllLowerHex(s: string) {
    forall i :: 0 <= i < |s| ==> IsLowerHex(s[i])
  }

  /** The text form of a UUID: 8-4-4-4-12 lower-case hexadecimal digits. */
  predicate IsUuidText(u: string) {
    |u| == 36 && u[8] == '-' && u[13] == '-' && u[18] == '-' && u[23] == '-' &&
    AllLowerHex(u[..8]) && AllLowerHex(u[9..13]) && AllLowerHex(u[14..18]) &&
    AllLowerHex(u[19..23]) && AllLowerHex(u[24..])
  }

  /** Removing dashes around one dash that separates two parts. */
  lemma StripDashesAround(a: string, b: string)
    requires AllLowerHex(a)
    ensures StripDashes(a + "-" + b) == a + StripDashes(b)
  {
    assert Lacks(a, '-') by {
      forall i | 0 <= i < |a|
        ensures a[i] != '-'
      {
        assert IsLowerHex(a[i]);
      }
    }
    StripDashesNoDash(a);
    var d := "-" + b;
    assert StripDashes(d) == StripDashes(b) by {
      assert d[0] == '-' && d[1..] == b;
    }
    assert a + "-" + b == a + d;
    StripDashesAppend(a, d);
  }

  /** For a real UUID the generated hash is its first three groups: sixteen
      hexadecimal digits. */
  lemma GeneratedHashOfUuid(u: string)
    requires IsUuidText(u)
    ensures GeneratedHash(u) == u[..8] + u[9..13] + u[14..18]
    ensures |GeneratedHash(u)| == 16
    ensures AllLowerHex(GeneratedHash(u))
  {
    var r1, r2, r3 := u[9..], u[14..], u[19..];
    assert u == u[..8] + "-" + r1;
    assert r1 == u[9..13] + "-" + r2;
    assert r2 == u[14..18] + "-" + r3;
    assert r3 == u[19..23] + "-" + u[24..];
    StripDashesAround(u[19..23], u[24..]);
    StripDashesNoDash(u[24..]);
    StripDashesAround(u[14..18], r3);
    StripDashesAround(u[9..13], r2);
    StripDashesAround(u[..8], r1);
    var t := StripDashes(u);
    assert t == u[..8] + (u[9..13] + (u[14..18] + (u[19..23] + u[24..])));
    assert t[..16] == u[..8] + u[9..13] + u[14..18];
  }

  /** The full client's `session_hash` (lines 49-52 of the main client): the
      cookie's value when it is non-empty, otherwise the first sixteen
      characters of the supplied UUID text with its dashes removed. */
  function ClientSessionHash(jar: Jar, uuidText: string): (r: string)
    ensures forall i :: 0 <= i < |jar| && jar[i].0 == "session_hash" && jar[i].1 != "" ==> r == jar[i].1
    ensures (forall i :: 0 <= i < |jar| && jar[i].0 == "session_hash" ==> jar[i].1 == "") ==>
              StartsWith(StripDashes(uuidText), r) && Lacks(r, '-') &&
              |r| == (if |StripDashes(uuidText)| < 16 then |StripDashes(uuidText)| else 16)
  {
    var cookie := GetOrEmpty(jar, "session_hash");
    if cookie != "" then cookie else GeneratedHash(uuidText)
  }

  /** The full client never goes on with an empty session hash when the
      UUID is well formed. */
  lemma ClientSessionHashNonEmpty(jar: Jar, uuidText: string)
    requires IsUuidText(uuidText)
    ensures ClientSessionHash(jar, uuidText) != ""
  {
    GeneratedHashOfUuid(uuidText);
  }
}

=== FILE: statusclient.dfy ===
/**
 The upload client (`tempCodeRunnerFile.py`): the images travel by a
 separate upload request, and the channel's frames are keyed by a
 `status` field rather than `msg`. The handler keeps no state; it sends
 nothing and has no completion flag, so its effects are reports, the
 closing of the channel and the writing of the result.
 */
module StatusClient {
  import opened Basics
  import opened Json
  import opened Protocol

  const JpgOutput: string := "fused_image.jpg"

  predicate HasStatus(f: Frame, k: string) {
    HasField(f, "status", k)
  }

  /** The `fused_image` field of an object frame: the stored value when the
      field is present, and `None` for a missing field or a frame that is
      not an object. */
  function FusedImage(f: Frame): (r: Value)
    ensures f.Parsed? && f.data.Obj? && "fused_image" in f.data.fields ==> r == f.data.fields["fused_image"]
    ensures r != Null ==> f.Parsed? && f.data.Obj? && "fused_image" in f.data.fields
  {
    if f.Parsed? && f.data.Obj? then Get(f.data.fields, "fused_image") else Null
  }

  /** Saving the `fused_image` of a completed frame and closing. */
  function SaveFused(img: Value): (acts: seq<Action>)
    requires Truthy(img)
    ensures RaisesLast(acts) && Crashed(acts) == (|acts| == 1)
    ensures !Crashed(acts) ==> (img.Str? && B64Decode(img.s).Ok? &&
                        acts == [WriteFile(JpgOutput, B64Decode(img.s).value), Log(Saved(JpgOutput)), Close])
  {
    if !img.Str? then [Raise(TypeError)]
    else match B64Decode(img.s)
      case Err(e) => [Raise(e)]
      case Ok(bytes) => [WriteFile(JpgOutput, bytes), Log(Saved(JpgOutput)), Close]
  }

  /** `on_message`. */
  function Step(f: Frame): (acts: seq<Action>)
    ensures RaisesLast(acts) && !HasSend(acts) && SetDone !in acts && !ArmsTimer(acts)
    ensures Close in acts ==> HasStatus(f, "completed") || HasStatus(f, "error")
    ensures (HasStatus(f, "completed") || HasStatus(f, "error")) && !Crashed(acts) ==>
              |acts| > 0 && acts[|acts| - 1] == Close
    ensures Writes(acts) ==> HasStatus(f, "completed") && Truthy(FusedImage(f))
    ensures Crashed(acts) ==> !(f.Parsed? && f.data.Obj?) || (HasStatus(f, "completed") && Truthy(FusedImage(f)))
  {
    match f
    case Malformed(text) => [Log(NonJson(text))]
    case Parsed(data) =>
      if !data.Obj? then [Raise(AttributeError)]
      else
        var status := Get(data.fields, "status");
        if status == Str("processing") then [Log(Progress(GetOr(data.fields, "progress", Num(0))))]
        else if status == Str("completed") then
          var img := Get(data.fields, "fused_image");
          if Truthy(img) then SaveFused(img) else [Log(NoFusedImage), Close]
        else if status == Str("error") then [Log(StatusError(Get(data.fields, "message"))), Close]
        else [Log(UnknownStatus(status))]
  }
}

=== FILE: statusclient_props.dfy ===
/**
 What the upload client does with each frame, stated against the handler
 of `StatusClient`.
 */
module StatusClientProperties {
  import opened Basics
  import opened Json
  import opened Protocol
  import Base64
  import opened StatusClient

  function ObjFrame(d: map<string, Value>): Frame {
    Parsed(Json.Obj(d))
  }

  /** A progress report carries the frame's `progress`, 0 when absent. */
  lemma ProgressReported(d: map<string, Value>)
    requires Get(d, "status") == Str("processing")
    ensures Step(ObjFrame(d)) == [Log(Progress(if "progress" in d then d["progress"] else Num(0)))]
  {
  }

  /** A completed frame whose `fused_image` is the base64 text of some bytes
      has those bytes written to `fused_image.jpg` before the channel is
      closed. */
  lemma CompletedSaved(d: map<string, Value>, image: seq<byte>)
    requires Get(d, "status") == Str("completed") && |image| > 0
    requires Get(d, "fused_image") == Str(Base64.Encode(image))
    ensures Step(ObjFrame(d)) == [WriteFile(JpgOutput, image), Log(Saved(JpgOutput)), Close]
  {
    EncodedImageSaved(image);
  }

  /** Saving the base64 text of some bytes writes those bytes. */
  lemma EncodedImageSaved(image: seq<byte>)
    requires |image| > 0
    ensures Truthy(Str(Base64.Encode(image)))
    ensures SaveFused(Str(Base64.Encode(image))) == [WriteFile(JpgOutput, image), Log(Saved(JpgOutput)), Close]
  {
    Base64.DecodeEncode(image);
  }

  /** Whatever text `fused_image` holds, a decodable one is written as
      decoded, and one the decoder rejects raises before anything is
      written or closed. */
  lemma CompletedDecoded(d: map<string, Value>, text: string)
    requires Get(d, "status") == Str("completed") && Get(d, "fused_image") == Str(text) && text != ""
    ensures B64Decode(text).Ok? ==>
              Step(ObjFrame(d)) == [WriteFile(JpgOutput, B64Decode(text).value), Log(Saved(JpgOutput)), Close]
    ensures B64Decode(text).Err? ==> Step(ObjFrame(d)) == [Raise(B64Decode(text).error)]
  {
  }

  /** A completed frame without image data reports it and closes. */
  lemma CompletedWithoutImage(d: map<string, Value>)
    requires Get(d, "status") == Str("completed") && !Truthy(Get(d, "fused_image"))
    ensures Step(ObjFrame(d)) == [Log(NoFusedImage), Close]
  {
  }

  /** Image data that is neither text nor bytes fails inside the decoder. */
  lemma CompletedNonTextRaises(d: map<string, Value>)
    requires Get(d, "status") == Str("completed") && Truthy(Get(d, "fused_image")) && !Get(d, "fused_image").Str?
    ensures Step(ObjFrame(d)) == [Raise(TypeError)]
  {
  }

  /** An error frame reports the frame's `message` and closes. */
  lemma ErrorReported(d: map<string, Value>)
    requires Get(d, "status") == Str("error")
    ensures Step(ObjFrame(d)) == [Log(StatusError(Get(d, "message"))), Close]
  {
  }

  /** Any other status, or none, is reported and changes nothing. */
  lemma UnknownStatusIgnored(d: map<string, Value>)
    requires Get(d, "status") !in {Str("processing"), Str("completed"), Str("error")}
    ensures Step(ObjFrame(d)) == [Log(UnknownStatus(Get(d, "status")))]
  {
  }

  lemma NonJsonIgnored(text: string)
    ensures Step(Malformed(text)) == [Log(NonJson(text))]
  {
  }
}

=== FILE: urlquote.dfy ===
/**
 Python's `urllib.parse.quote(name)` with its default `safe='/'`: the text
 is encoded as UTF-8, and every octet that is neither an unreserved
 character of section 2.3 of RFC 3986 nor `/` is written as a
 percent-encoded triplet with upper-case hexadecimal digits (section 2.1
 of RFC 3986). Its inverse is percent-decoding, which gives the octets
 back.
 */
module UrlQuote {
  import opened Basics

  /** UTF-8 encoding of one Unicode scalar value (section 3 of RFC 3629). */
  function Utf8(c: char): (r: seq<byte>)
    ensures 1 <= |r| <= 4
    ensures |r| == 1 <==> c as int < 128
    ensures |r| == 1 ==> r[0] == c as int
    ensures |r| > 1 ==> forall k :: 0 <= k < |r| ==> r[k] >= 128
  {
    var n := c as int;
    if n < 0x80 then [n]
    else if n < 0x800 then [0xC0 + n / 64, 0x80 + n % 64]
    else if n < 0x10000 then [0xE0 + n / 4096, 0x80 + n / 64 % 64, 0x80 + n % 64]
    else [0xF0 + n / 262144, 0x80 + n / 4096 % 64, 0x80 + n / 64 % 64, 0x80 + n % 64]
  }

  /** `s.encode('utf-8')`. */
  function Utf8Encode(s: string): (r: seq<byte>)
    ensures |s| <= |r| <= 4 * |s|
    decreases |s|
  {
    if |s| == 0 then [] else Utf8(s[0]) + Utf8Encode(s[1..])
  }

  /** An ASCII text encodes to its own code points, one octet each. */
  lemma {:induction false} Utf8EncodeAscii(s: string)
    requires forall i :: 0 <= i < |s| ==> s[i] as int < 128
    ensures |Utf8Encode(s)| == |s|
    ensures forall i :: 0 <= i < |s| ==> Utf8Encode(s)[i] == s[i] as int
    decreases |s|
  {
    if |s| > 0 {
      Utf8EncodeAscii(s[1..]);
    }
  }

  /** Octets `quote` never escapes: `A-Z a-z 0-9 _ . - ~` and the safe `/`. */
  predicate IsKept(b: byte) {
    ('A' as int <= b <= 'Z' as int) || ('a' as int <= b <= 'z' as int) || ('0' as int <= b <= '9' as int) ||
    b == '_' as int || b == '.' as int || b == '-' as int || b == '~' as int || b == '/' as int
  }

  predicate IsUpperHex(c: char) {
    ('0' <= c <= '9') || ('A' <= c <= 'F')
  }

  /** The character a kept octet stands for, as one of the characters of `IsKept`. */
  predicate IsKeptChar(c: char) {
    c as int < 256 && IsKept(c as int)
  }

  function HexDigit(v: int): (c: char)
    requires 0 <= v < 16
    ensures IsUpperHex(c)
  {
    if v < 10 then ('0' as int + v) as char else ('A' as int + (v - 10)) as char
  }

  predicate IsHex(c: char) {
    ('0' <= c <= '9') || ('A' <= c <= 'F') || ('a' <= c <= 'f')
  }

  /** The value of a hexadecimal digit of either case. */
  function HexValue(c: char): (v: int)
    requires IsHex(c)
    ensures 0 <= v < 16
  {
    if '0' <= c <= '9' then c as int - '0' as int
    else if 'A' <= c <= 'F' then c as int - 'A' as int + 10
    else c as int - 'a' as int + 10
  }

  lemma HexValueDigit(v: int)
    requires 0 <= v < 16
    ensures IsHex(HexDigit(v)) && HexValue(HexDigit(v)) == v
  {
  }

  /** An upper-case hexadecimal digit is the digit of its own value. */
  lemma HexDigitValue(c: char)
    requires IsUpperHex(c)
    ensures HexDigit(HexValue(c)) == c
  {
  }

  /** The `%` at `i` opens a triplet of upper-case hexadecimal digits that
      names an octet `quote` escapes. */
  predicate EscapeAt(r: string, i: nat)
    requires i < |r|
  {
    i + 2 < |r| && IsUpperHex(r[i + 1]) && IsUpperHex(r[i + 2]) &&
    !IsKept(HexValue(r[i + 1]) * 16 + HexValue(r[i + 2]))
  }

  /** What a quoted text looks like: kept characters, and `%` only at the
      head of the triplet of an escaped octet. */
  predicate WellQuoted(r: string) {
    (forall i :: 0 <= i < |r| ==> IsKeptChar(r[i]) || r[i] == '%' || IsUpperHex(r[i])) &&
    (forall i :: 0 <= i < |r| && r[i] == '%' ==> EscapeAt(r, i))
  }

  /** One octet, kept or percent-encoded. */
  function QuoteOctet(b: byte): (r: string)
    ensures IsKept(b) ==> r == [b as char]
    ensures !IsKept(b) ==> |r| == 3 && r[0] == '%' && IsUpperHex(r[1]) && IsUpperHex(r[2])
  {
    if IsKept(b) then [b as char] else ['%', HexDigit(b / 16), HexDigit(b % 16)]
  }

  /** `quote_from_bytes(bs, '/')`. */
  function QuoteBytes(bs: seq<byte>): (r: string)
    ensures |bs| <= |r| <= 3 * |bs|
    ensures forall i :: 0 <= i < |r| ==> IsKeptChar(r[i]) || r[i] == '%' || IsUpperHex(r[i])
    decreases |bs|
  {
    if |bs| == 0 then "" else QuoteOctet(bs[0]) + QuoteBytes(bs[1..])
  }


  /** Percent-decoding (section 2.1 of RFC 3986): a `%` followed by two
      hexadecimal digits is one octet, any other character stands for its
      UTF-8 octets. */
  function UnquoteBytes(s: string): (r: seq<byte>)
    decreases |s|
  {
    if |s| == 0 then []
    else if |s| >= 3 && s[0] == '%' && IsHex(s[1]) && IsHex(s[2]) then
      [HexValue(s[1]) * 16 + HexValue(s[2])] + UnquoteBytes(s[3..])
    else Utf8(s[0]) + UnquoteBytes(s[1..])
  }

  /** Decoding one quoted octet in front of any text. */
  lemma UnquoteOctet(b: byte, rest: string)
    ensures UnquoteBytes(QuoteOctet(b) + rest) == [b] + UnquoteBytes(rest)
  {
    var t := QuoteOctet(b) + rest;
    if IsKept(b) {
      assert t[0] == b as char && t[1..] == rest;
    } else {
      HexValueDigit(b / 16);
      HexValueDigit(b % 16);
      assert t[0] == '%' && t[1] == HexDigit(b / 16) && t[2] == HexDigit(b % 16);
      assert t[3..] == rest;
    }
  }

  /** Percent-decoding gives back every octet `quote` encoded. */
  lemma {:induction false} UnquoteQuoteBytes(bs: seq<byte>)
    ensures UnquoteBytes(QuoteBytes(bs)) == bs
    decreases |bs|
  {
    if |bs| > 0 {
      UnquoteOctet(bs[0], QuoteBytes(bs[1..]));
      UnquoteQuoteBytes(bs[1..]);
      assert bs == [bs[0]] + bs[1..];
    }
  }

  /** A quoted octet in front of a well-quoted text keeps it well quoted. */
  lemma WellQuotedPrepend(b: byte, rest: string)
    requires WellQuoted(rest)
    ensures WellQuoted(QuoteOctet(b) + rest)
  {
    var q := QuoteOctet(b);
    var t := q + rest;
    if !IsKept(b) {
      HexValueDigit(b / 16);
      HexValueDigit(b % 16);
      assert t[1] == HexDigit(b / 16) && t[2] == HexDigit(b % 16);
      assert EscapeAt(t, 0);
    }
    forall i | 0 <= i < |t|
      ensures IsKeptChar(t[i]) || t[i] == '%' || IsUpperHex(t[i])
      ensures t[i] == '%' ==> EscapeAt(t, i)
    {
      if i >= |q| {
        assert t[i] == rest[i - |q|];
        if rest[i - |q|] == '%' {
          assert EscapeAt(rest, i - |q|);
          assert t[i + 1] == rest[i - |q| + 1] && t[i + 2] == rest[i - |q| + 2];
        }
      }
    }
  }

  /** Quoting an octet string gives a well-quoted text. */
  lemma {:induction false} QuoteBytesWellQuoted(bs: seq<byte>)
    ensures WellQuoted(QuoteBytes(bs))
    decreases |bs|
  {
    if |bs| > 0 {
      QuoteBytesWellQuoted(bs[1..]);
      WellQuotedPrepend(bs[0], QuoteBytes(bs[1..]));
    }
  }

  /** A well-quoted text is the quoting of the octets it decodes to: no
      other text of that shape decodes to the same octets. */
  lemma {:induction false} QuoteBytesUnique(bs: seq<byte>, t: string)
    requires WellQuoted(t) && UnquoteBytes(t) == bs
    ensures t == QuoteBytes(bs)
    decreases |t|
  {
    if |t| > 0 {
      var n := FirstToken(t);
      WellQuotedDrop(t, n);
      QuoteBytesUnique(bs[1..], t[n..]);
      assert t == t[..n] + t[n..];
    }
  }

  /** The first token of a well-quoted text, an escape triplet or one kept
      character, is the quoting of the first octet it decodes to. */
  lemma FirstToken(t: string) returns (n: nat)
    requires WellQuoted(t) && |t| > 0
    ensures n <= |t| && |UnquoteBytes(t)| > 0
    ensures QuoteOctet(UnquoteBytes(t)[0]) == t[..n]
    ensures UnquoteBytes(t) == [UnquoteBytes(t)[0]] + UnquoteBytes(t[n..])
  {
    if t[0] == '%' {
      n := 3;
      assert EscapeAt(t, 0);
      var v := HexValue(t[1]) * 16 + HexValue(t[2]);
      assert UnquoteBytes(t) == [v] + UnquoteBytes(t[3..]);
      HexDigitValue(t[1]);
      HexDigitValue(t[2]);
      assert v / 16 == HexValue(t[1]) && v % 16 == HexValue(t[2]);
    } else {
      n := 1;
      assert IsKeptChar(t[0]);
      assert UnquoteBytes(t) == Utf8(t[0]) + UnquoteBytes(t[1..]);
    }
  }

  /** Dropping whole leading tokens keeps a text well quoted. */
  lemma WellQuotedDrop(t: string, n: nat)
    requires WellQuoted(t) && n <= |t|
    ensures WellQuoted(t[n..])
  {
    var rest := t[n..];
    forall i | 0 <= i < |rest|
      ensures IsKeptChar(rest[i]) || rest[i] == '%' || IsUpperHex(rest[i])
      ensures rest[i] == '%' ==> EscapeAt(rest, i)
    {
      assert rest[i] == t[i + n];
      if rest[i] == '%' {
        assert EscapeAt(t, i + n);
        assert rest[i + 1] == t[i + n + 1] && rest[i + 2] == t[i + n + 2];
      }
    }
  }

  /** `urllib.parse.quote(s)` for a text argument: one to three characters
      per UTF-8 octet, kept characters, and a `%` only where an escaped
      octet's triplet begins; percent-decoding the result gives back the
      text's UTF-8 encoding. */
  function Quote(s: string): (r: string)
    ensures |Utf8Encode(s)| <= |r| <= 3 * |Utf8Encode(s)|
    ensures forall i :: 0 <= i < |r| ==> IsKeptChar(r[i]) || r[i] == '%' || IsUpperHex(r[i])
    ensures forall i :: 0 <= i < |r| && r[i] == '%' ==> EscapeAt(r, i)
    ensures UnquoteBytes(r) == Utf8Encode(s)
  {
    UnquoteQuoteBytes(Utf8Encode(s));
    QuoteBytesWellQuoted(Utf8Encode(s));
    QuoteBytes(Utf8Encode(s))
  }

  /** `quote` is pinned down by its contract: the only text of kept
      characters and escape triplets that decodes to a text's UTF-8
      octets is that text's quoting. */
  lemma QuoteUnique(s: string, t: string)
    requires forall i :: 0 <= i < |t| ==> IsKeptChar(t[i]) || t[i] == '%' || IsUpperHex(t[i])
    requires forall i :: 0 <= i < |t| && t[i] == '%' ==> EscapeAt(t, i)
    requires UnquoteBytes(t) == Utf8Encode(s)
    ensures t == Quote(s)
  {
    QuoteBytesUnique(Utf8Encode(s), t);
  }

  /** A name made only of kept characters is not changed by quoting. */
  lemma {:induction false} QuoteKeepsPlainNames(s: string)
    requires forall i :: 0 <= i < |s| ==> IsKeptChar(s[i])
    ensures Quote(s) == s
    decreases |s|
  {
    if |s| > 0 {
      QuoteKeepsPlainNames(s[1..]);
      assert Utf8Encode(s) == Utf8(s[0]) + Utf8Encode(s[1..]);
      assert Quote(s) == QuoteOctet(s[0] as int) + Quote(s[1..]);
      assert s == [s[0]] + s[1..];
    }
  }
}
